=== FILE: README.md ===
# Sportify-Spots membership and booking accounting, in Dafny

Sportify-Spots sells sports-ground memberships. A member buys a monthly or
yearly plan at checkout and gets a flat 20 per cent discount on ground
bookings. Each booking adds one to the member's `totalBookings` and adds its
discount to `totalSavings`. Three programs manipulate the same two
collections:

- the file-backed Express server (`server.js`): checkout, get, update,
  cancel, verify, booking, per-email listing and statistics;
- the admin command-line tool (`admin-cli.js`): listing, statistics, member
  lookup, removal, CSV export and clearing;
- the Supabase-backed Flask service (`backend/app.py`): signup, login,
  verify, checkout and booking.

The model is one state machine. `Records.State` holds the members and
bookings sequences in storage order. Each endpoint or command is a pure
function from a state and its input to a new state and a reply
(`Records.Step`). The reply is `Ok(value)` or `Fail(error)`, where the
error is one of `ValidationError`, `NotFound`, `Unauthorized`,
`AlreadyExists` or `ServerError`.

Request fields are `Option<string>`. The Express server and the CLI test
them for truthiness (present and non-empty). The Flask signup and checkout
test them for key presence; the Flask login and verify test them for
truthiness. Prices and discounts are exact `real`s. A renewal date is
an abstract horizon from the purchase time: `Months(12)`/`Months(1)` on the
Express side and `Days(365)`/`Days(30)` on the Flask side. The clock and
generated ids are parameters (`now`, `id`).

Modules:

- `Records`: the entities.
- `Store`: lookups, filters and sums over the collections.
- `Policy`: the discount percentage and renewal horizons.
- `Text`: Python's `strip().lower()`.
- `Integrity`: the store invariants:
  - one member per email (`UniqueEmails`) and per id (`UniqueIds`);
  - every member's counters equal the tally of the bookings carrying its
    id (`Balanced`);
  - the members that can book carry a discount.
- `Server` and `ServerInvariants`: the Express server, and the invariants
  it keeps.
- `FlaskApp` and `FlaskInvariants`: the Flask service, its invariants, and
  its agreement with the Express server.
- `Reporting`: the statistics.
- `Csv`: newline-joined text and reading it back line by line.
- `AdminCli`: the admin tool.

## Model

| member | source | states |
|---|---|---|
| Policy.ServerHorizon | server.js:469-477 | renewal is twelve months ahead exactly for "yearly", one month for every other plan |
| Policy.FlaskHorizon | backend/app.py:150 | renewal is 365 days ahead exactly for "yearly", 30 days for every other plan |
| Policy.DiscountBounds | server.js:335-336 | the discount `price·pct/100` on a non-negative price lies between 0 and the price for a percentage in 0..100, grows with the percentage, and is a fifth of the price at the member rate |
| Store.FindEmail | server.js:155 | `find` by email: the least index with that email, and none exactly when no member has it |
| Store.FindActive | server.js:325 | `find` by email and active status: the least such index, none exactly when there is none |
| Store.FindCredentials | backend/app.py:99-100 | first row matching both email and password, none exactly when no row does |
| Store.Select | server.js:396 | filter keeps exactly the bookings matching the key and never grows the list |
| Store.SelectAppend | server.js:396 | the filter distributes over concatenation, so it keeps storage order |
| Store.Without | admin-cli.js:169 | the kept members are exactly the input's members with a different email |
| Store.WithoutAppend | admin-cli.js:169 | removal distributes over concatenation, so the survivors keep their order |
| Store.WithoutShortens | admin-cli.js:168-171 | removal keeps the length exactly when no member has the email |
| Store.SelectSplit | server.js:449 | selecting a set of member ids plus one new id adds that id's bookings and discounts |
| Store.Count | server.js:445-447 | a `filter(...).length` count never exceeds the member count |
| Store.CountExtremes | server.js:445-447 | a count is zero exactly when no member passes the test, and the member count exactly when every member does |
| Store.CountAppend | server.js:445-447 | counting over two runs of members is the sum of their counts, so the count is the number of passing members |
| Store.PlanCountsBounded | server.js:446-447 | members on two different plans, such as monthly and yearly, never exceed the member count |
| Store.SavingsTotal | server.js:449 | the summed savings are never negative when no member's savings are |
| Store.SavingsTotalAppend | server.js:449 | summing savings over two runs of members is the sum of their totals |
| Text.TrimStart | backend/app.py:64 | `strip` removes only whitespace from the front and leaves a suffix that is empty or starts with a non-space |
| Text.TrimEnd | backend/app.py:64 | `strip` removes only whitespace from the back and leaves a prefix that is empty or ends with a non-space |
| Text.Leading | backend/app.py:64 | the leading run of whitespace: every character before it is whitespace and the one at it is not |
| Text.Trim | backend/app.py:64 | the stripped text is the slice of the input between its leading and its trailing run of whitespace, so only whitespace is removed, and it has no whitespace at either end |
| Text.Lower | backend/app.py:64 | lowercasing keeps the length, turns each ASCII capital into its small letter, leaves every other character alone, and leaves no capital behind |
| Text.LowerIdempotent | backend/app.py:110 | lowercasing twice is lowercasing once |
| Text.NormalizeIdempotent | backend/app.py:64 | normalising an already normalised email changes nothing |
| Text.LowerOfNormalized | backend/app.py:110 | `lower()` of a stored normalised email is that email, so the admin check sees what signup stored |
| Integrity.OnlyOneWithEmail | server.js:91 | with one member per email, a member is the only one holding its email |
| Integrity.FirstIsTheActiveOne | server.js:280-282 | with one member per email, "the first member with this email is active" and "some active member has this email" coincide and pick the same index |
| Integrity.DuplicatesSplitTheReadings | server.js:325 | with a cancelled row ahead of an active one for the same email, verify says inactive while booking succeeds |
| Integrity.TallyOfAppended | server.js:356 | appending a booking adds it, and its discount, to the tally of the member it names only |
| Integrity.FreshIdHasNoBookings | server.js:106 | no booking carries a fresh id, so its tally is empty |
| Integrity.ChargeKeepsConsistent | server.js:355-362 | a booking charged to a member whose counters grow by one and by its discount keeps every member balanced |
| Integrity.EnrolKeepsConsistent | server.js:104-126 | appending a member with a fresh id, an unused email and zero counters keeps the store consistent |
| Integrity.RewriteKeepsConsistent | server.js:93-102 | rewriting a member while keeping its id, email and counters keeps the store consistent |
| Integrity.WithoutKeepsUnique | admin-cli.js:169 | removing members keeps emails and ids unique |
| Integrity.WithoutKeepsConsistent | admin-cli.js:167-177 | removal leaves every remaining member balanced against the unchanged bookings |
| Server.Checkout | server.js:66-145 | refused with no write unless all four fields are non-empty; a new email appends one active member with the form's name, phone and address, at 20 per cent, with zero counters, the purchase time, the plan's horizon, and no password, update or cancellation time; an existing email is re-activated in place, keeping id, discount and counters; bookings never change |
| Server.Get | server.js:151-189 | not found exactly when no member has the email; otherwise the first member with it |
| Server.Update | server.js:195-228 | not found with no write for an unknown email; otherwise only phone and name (each when non-empty) and the update time of the first match change |
| Server.Cancel | server.js:234-261 | every member with the email is cancelled, nothing else changes, the length is kept, and an absent email is a successful no-op |
| Server.Verify | server.js:267-304 | a missing email is rejected; otherwise active exactly when the first member with the email is active, with its plan and discount |
| Server.CreateBooking | server.js:324-362 | without an active member nothing is written; otherwise one confirmed booking at price minus price·pct/100 is appended and only that member's counters grow, by one and by the discount |
| Server.CreateBookingAsWritten | server.js:364-377 | the reply names an undeclared `originalPrice`: every booking that was written is answered with a server error, while the store is left exactly as the corrected booking leaves it, booking and counters written |
| Server.BookingFailsAfterWriting | server.js:355-377 | as written, an accepted booking is stored and the charged member's counters grow by one and by its discount, and yet the request is reported as a failure |
| Server.ListBookings | server.js:392-411 | the bookings with the email, in storage order, and their number |
| Server.BookingPriceBounds | server.js:335-336 | on a non-negative price, discount and final price add up to the price and, at a discount within 0..100 per cent, both lie between 0 and the price |
| Server.VerifyAgreesWithBooking | server.js:280-282 | with one member per email, verify says active exactly when a booking is not refused as unauthorised |
| Server.CheckoutThenGet | server.js:91-126 | after a checkout, get finds the member active on the chosen plan |
| Server.CheckoutTwiceKeepsOneMember | server.js:91-126 | two checkouts with one email leave one new member, on the second plan, keeping the first id and the 20 per cent |
| Server.CancelThenRefused | server.js:239-245 | after cancel, verify says inactive and a booking is refused with no write |
| Server.CancelIdempotent | server.js:239-245 | cancelling twice is cancelling once |
| Server.UpdateIdempotent | server.js:210-212 | repeating an update changes nothing more |
| Server.YearlyThenBooking | server.js:335-361 | a yearly checkout then a booking at 1500 gives a discount of 300, a final price of 1200, counters 1 and 300, and a twelve-month renewal |
| ServerInvariants.CheckoutKeepsSound | server.js:91-127 | checkout with a fresh id keeps emails unique, counters balanced and every member priced |
| ServerInvariants.UpdateKeepsSound | server.js:200-214 | update keeps the store sound |
| ServerInvariants.CancelKeepsSound | server.js:237-247 | cancel keeps the store sound |
| ServerInvariants.CreateBookingKeepsSound | server.js:324-362 | booking keeps every member's counters equal to its tally |
| ServerInvariants.SoundBookingNeverFaults | server.js:325-335 | on a sound store a booking succeeds exactly when an active member has the email |
| ServerInvariants.BookingCreditsTheTally | server.js:355-361 | the new booking joins exactly the charged member's tally and its counters match it |
| FlaskApp.PriceValue | backend/app.py:188-191 | a number is taken as is; an absent or unparsable price becomes 0.0 |
| FlaskApp.Signup | backend/app.py:55-85 | refused unless all four keys are present; refused if the normalised email exists; succeeds exactly when neither holds, and then one row is appended with the id, the normalised email, the name, phone and password given, an inactive status, no plan, discount, address, purchase, renewal, update or cancellation, zero counters and the creation time |
| FlaskApp.Login | backend/app.py:87-115 | refused when the normalised email is empty or the password falsy; unauthorised exactly when no row matches email and password; succeeds exactly when one does, with the first match, admin exactly when its email is on the fixed list |
| FlaskApp.Verify | backend/app.py:119-139 | a missing email is rejected; active exactly when the first row with the email is active; the discount defaults to 0 |
| FlaskApp.Checkout | backend/app.py:141-174 | refused unless all four keys are present; every row with the email as given is re-activated at 20 per cent, or one new active row is appended with the email as given, no password, address, update or cancellation, and zero counters; both paths record the purchase time and the renewal horizon; bookings never change |
| FlaskApp.CreateBooking | backend/app.py:176-213 | without an active row nothing is written; a server error exactly when the first active row has no discount; succeeds exactly when it has one, and then one confirmed booking at the first active row's rate is appended and every row with the email gets that row's counters plus one and plus the discount |
| FlaskApp.Credit | backend/app.py:206-210 | the update by email leaves rows with other emails alone and gives every row with the email the charged row's counters plus one booking and the discount |
| FlaskInvariants.SignupKeepsSound | backend/app.py:67-82 | signup with a fresh id keeps the store sound |
| FlaskInvariants.CheckoutKeepsSound | backend/app.py:152-171 | checkout with a fresh id keeps emails unique and the store sound |
| FlaskInvariants.BookingRewritesOneRow | backend/app.py:206-210 | with one row per email, the update by email rewrites only the charged row |
| FlaskInvariants.CreditRewritesOneRow | backend/app.py:210 | with one row per email, the update by email is a rewrite of the charged row alone |
| FlaskInvariants.CreateBookingKeepsSound | backend/app.py:183-210 | booking keeps the store sound |
| FlaskInvariants.BookingAgreesWithServer | backend/app.py:183-210 | with one row per email and a numeric price, the Flask booking gives the same reply and leaves the same store as the Express one on the same request with location, date and time slot blanked (the Flask table has no such columns) |
| FlaskInvariants.VerifyAgreesWithBooking | backend/app.py:128-130 | with one row per email, verify says active exactly when a booking is not refused |
| FlaskInvariants.SignupAppends | backend/app.py:72-82 | a successful signup appends exactly one inactive member holding the normalised email and the password |
| FlaskInvariants.SignupCannotBook | backend/app.py:77 | right after signup, a booking under the stored email is refused with no write |
| FlaskInvariants.InactiveNewcomer | backend/app.py:77 | an inactive member added under an unused email leaves it with no active member |
| FlaskInvariants.RefusedWithoutActive | backend/app.py:183-186 | with no active row for the email, a booking is refused and writes nothing |
| FlaskInvariants.CheckoutUnlocksBooking | backend/app.py:146-171 | signup then checkout under the stored email lets a booking through at 20 per cent |
| FlaskInvariants.CheckoutActivates | backend/app.py:162-163 | checkout for a stored email leaves it active and every row with it at 20 per cent |
| FlaskInvariants.BookingAtMemberRate | backend/app.py:193 | a booking for an active email whose rows carry 20 per cent is charged at that rate |
| FlaskInvariants.SignupThenLogin | backend/app.py:64-113 | after signup, login with the signup email and password succeeds and returns the new member |
| FlaskInvariants.LoginIgnoresCaseAndPadding | backend/app.py:92 | two spellings of an email that normalise alike get the same login answer |
| FlaskInvariants.CaseMismatchAddsRow | backend/app.py:149 | checkout under a differently cased email appends a second row and leaves the signed-up one inactive |
| FlaskInvariants.StillUnused | backend/app.py:152 | appending a member with another email keeps an email unused |
| Reporting.Divisor | server.js:450 | the divisor is at least one and at least the member count |
| Reporting.Average | server.js:450 | the average times the divisor is the booking count, never negative, and 0 with no bookings |
| Reporting.Stats | server.js:443-451 | the totals are the collection sizes; the active, monthly and yearly figures are the counts of members passing those tests and stay within the member count; revenue is the members' summed savings; the average is bookings over the divisor (all zero on an empty store) |
| Reporting.NoIdsSelectNothing | server.js:449 | selecting no member ids selects no bookings |
| Reporting.SelectEverything | server.js:448 | when every booking matches, the filter is the identity |
| Reporting.CountersMatchBookings | server.js:449 | on a balanced store the summed savings are the discounts of the bookings owned by current members, and the summed counters their number |
| Reporting.StatsWithoutOrphans | server.js:448-449 | with no orphaned bookings, reported revenue is the sum of all discounts and the booking count the sum of the counters |
| Csv.JoinWith | admin-cli.js:186-188 | joining no parts gives the empty text and joining one part gives that part |
| Csv.Split | admin-cli.js:188 | splitting at a separator yields at least one piece |
| Csv.SplitOfPlain | admin-cli.js:188 | a text without the separator is one piece |
| Csv.SplitOfFirst | admin-cli.js:185-188 | a separator-free piece followed by the separator splits off as the first piece |
| Csv.SplitOfJoin | admin-cli.js:186-188 | splitting a join of separator-free parts gives those parts back, in order |
| Csv.JoinWithLast | admin-cli.js:186-188 | a join of two or more parts is the join of all but the last, the separator, and the last part |
| Csv.SeparatorCount | admin-cli.js:186-188 | separator-free parts join with exactly one separator fewer than there are parts |
| Csv.JoinKeepsOut | admin-cli.js:186-188 | a join holds no character other than the separator that none of its parts holds |
| AdminCli.Named | admin-cli.js:30-242 | a name resolves to a command only when it is that command's key |
| AdminCli.NamedInverse | admin-cli.js:30-242 | every command resolves from its own key and from no other |
| AdminCli.ListMembersOutput | admin-cli.js:34-38 | the "no members" message appears exactly when the members file is empty or missing |
| AdminCli.ListBookingsOutput | admin-cli.js:56-60 | the "no bookings" message appears exactly when the bookings file is empty or missing |
| AdminCli.MemberInfoOutput | admin-cli.js:102-129 | asks for an email when none is given; not found exactly when no member has it; otherwise the details of the first member with that email |
| AdminCli.MemberInfoAgreesWithGet | admin-cli.js:108-113 | `member-info` reports not found exactly when GET /api/membership/:email fails, and otherwise shows the member that request answers with |
| AdminCli.MemberBookingsOutput | admin-cli.js:134-145 | asks for an email when none is given; the "no bookings" message exactly when no booking has the email; otherwise the order-preserving filter of the bookings by that email |
| AdminCli.RemoveMemberCommand | admin-cli.js:162-178 | not found, with no write, exactly when no member has the email; otherwise the members file is rewritten to the order-preserving removal of that email and the reply names it; bookings are never touched |
| AdminCli.ClearDataCommand | admin-cli.js:213-223 | without `--yes` nothing changes; with it both files become empty lists |
| AdminCli.MemberRow | admin-cli.js:187 | a member's export row starts with its email and a comma and ends with the closing quote of the joining date |
| AdminCli.BookingRow | admin-cli.js:202 | a booking's export row starts with its email and a comma and ends with its status, `confirmed` |
| AdminCli.MemberRowFields | admin-cli.js:185-187 | with no comma in the email, name, plan or rendered values, a member's row read at its commas is exactly email, quoted name, plan, status, bookings, savings and quoted joining date, as many fields as the header has columns |
| AdminCli.BookingRowFields | admin-cli.js:200-202 | with no comma in the email, ground, date, slot or rendered amounts, a booking's row read at its commas is exactly email, quoted ground, date, slot, rupee price, rupee discount and `confirmed`, as many fields as the header has columns |
| AdminCli.MembersHeaderFields | admin-cli.js:185 | the members header reads back as Email, Name, Plan, Status, Bookings, Savings, Joined |
| AdminCli.BookingsHeaderFields | admin-cli.js:200 | the bookings header reads back as Email, Ground, Date, Time, Price, Discount, Status |
| AdminCli.MemberRowIsOneLine | admin-cli.js:187 | a member's row is one line when its fields and rendered values hold no newline |
| AdminCli.BookingRowIsOneLine | admin-cli.js:202 | a booking's row is one line when its fields and rendered amounts hold no newline |
| AdminCli.MemberRows | admin-cli.js:186-187 | one export row per member, in storage order |
| AdminCli.BookingRows | admin-cli.js:201-202 | one export row per booking, in storage order |
| AdminCli.Table | admin-cli.js:185-188 | the export starts with the header and a newline |
| AdminCli.MembersHeaderIsOneLine | admin-cli.js:185 | the members CSV header is a single line |
| AdminCli.BookingsHeaderIsOneLine | admin-cli.js:200 | the bookings CSV header is a single line |
| AdminCli.TableReadsBack | admin-cli.js:185-188 | read back line by line, an export is the header followed by the rows |
| AdminCli.ExportBookingsReadsBack | admin-cli.js:199-203 | the bookings export reads back as the fixed header and then one row per booking in storage order |
| AdminCli.ExportMembersReadsBack | admin-cli.js:184-188 | the members export reads back as the fixed header and then one row per member in storage order |
| AdminCli.Execute | admin-cli.js:30-242 | each command table entry runs its own action: the listings, stats, member-info, member-bookings, remove-member and clear-data give exactly their commands' outcomes, and each export writes the header and its rows to its CSV file; only `remove-member` and `clear-data` change the files, nothing crashes, and usage is printed by `help` alone |
| AdminCli.ExportBookingsCommandReadsBack | admin-cli.js:199-206 | what `export-bookings` writes reads back as the header and then one row per stored booking, in storage order |
| AdminCli.ExportMembersCommandReadsBack | admin-cli.js:184-191 | what `export-members` writes reads back as the header and then one row per stored member, in storage order |
| AdminCli.PrototypeNamesAreNotCommands | admin-cli.js:30-242 | no inherited `Object.prototype` property is named like a command |
| AdminCli.ExecuteNeverCrashes | admin-cli.js:30-242 | every command's own action completes, and help writes nothing |
| AdminCli.RunAsWritten | admin-cli.js:245-253 | a known command name (or none, meaning `help`) runs that command; an argument naming an `Object.prototype` property crashes the tool; any other unknown name is reported as unknown and leaves the files alone |
| AdminCli.Run | admin-cli.js:245-253 | a known command name runs that command; a missing command shows help; an unknown one is reported before help; nothing crashes; neither touches the files |
| AdminCli.PrototypeNameCrashes | admin-cli.js:248-249 | `constructor` crashes the dispatch as written and is reported as unknown by the corrected one |
| AdminCli.OnlyWritersChangeFiles | admin-cli.js:30-242 | only `remove-member` and `clear-data` change the data files |
| AdminCli.WritersKeepConsistent | admin-cli.js:167-177 | every command keeps a consistent store consistent |
| AdminCli.RemovalOrphansBookings | admin-cli.js:167-177 | after removal, the member-bookings listing for that email is unchanged |
| AdminCli.MissingFilesReadEmpty | admin-cli.js:15-27 | with no data files, the listings are empty, stats are all zero, removal finds nothing, and only `clear-data --yes` writes |
| AdminCli.CliStatsBounds | admin-cli.js:78-95 | the active, monthly and yearly figures are the counts of the members file passing those tests and stay within its length; total savings is the members' summed savings; the average is bookings over the divisor |

## Left out

- HTTP routing, response JSON shapes and status codes are left out. Replies are the `Reply` datatype.
- File reads and writes (`server.js:41-58`, `admin-cli.js:14-27`) and the Supabase client are left out. They are the sequences they load and store. The "Supabase not configured" 500 and storage-failure 500s are left out too.
- A data file that exists but does not parse is left out; only a missing file (read as empty) is modelled.
- The clock and `Date.now()`-derived ids are parameters. Calendar arithmetic is reduced to the renewal horizon. The invariant lemmas take fresh ids as a precondition (`FreshId`). The source does not guarantee this: `'MEM-' + Date.now()` (`server.js:106`) and `'BOOK-' + Date.now()` (`server.js:340`) repeat for two requests in the same millisecond.
- The booking's two separate writes (`server.js:355-362`, `backend/app.py:205-210`) are one atomic step. Concurrent requests are not modelled.
- `Math.round` (`server.js:450`), `toFixed(1)` (`admin-cli.js:95`) and `toLocaleDateString` are left out. The average is exact, and dates and numbers in exports go through the `Formats` parameter.
- JavaScript and Python floating point is replaced by exact reals. `float("nan")` and `float("inf")` prices are left out.
- Python `strip()`/`lower()` are modelled on ASCII only. Unicode whitespace and non-ASCII case mappings are left out.
- The line layout of `list-members`, `list-bookings`, `member-info`, `member-bookings` and `help` is left out. They are modelled as the records they print.
- CSV quoting is left out, as the source does no escaping. A value containing `"` or `,` is written unescaped, so such a row does not read back as its fields. AdminCli.MemberRowFields and AdminCli.BookingRowFields therefore require comma-free values. The quotes around names, grounds and dates stay part of the field read back.
- GET /api/members (`server.js:417-432`) returns the stored list unchanged and has no member of its own.
- The chat widget, the browser auth check, the HTTP test driver, the health-check route and static file serving are outside the accounting flow.
- Server.CreateBooking: a booking for an active member with no discount is a `ServerError` with no write. The source writes a booking priced `NaN` there. Such a member cannot arise from the server's own checkout (`ServerInvariants.SoundBookingNeverFaults`).
- Server.CreateBooking: a non-numeric `price` (which JavaScript turns into `NaN`) is not modelled. The price is a `real`.
- Server.CreateBooking: the reply is the stored booking. The source's reply object is the subject of the second finding below (`Server.CreateBookingAsWritten`).
- Server.Checkout: the reply's `membershipId` is a second clock reading, not the stored id, and is left out.
- Server.Get: replies with the whole stored member. The source projects it onto its public fields.
- FlaskApp: a table query without `.order()` promises no row order, yet login, verify and booking take `response.data[0]` (`backend/app.py:100`, `129`, `184`). The model takes the first matching row in storage order. With one row per email the choice does not matter.
- FlaskApp.Verify: a `discountPercentage` column that is present but null is not distinguished from an absent one.
- FlaskApp.CreateBooking: a member with no discount is a `ServerError` with no write. The source raises a `TypeError` and answers 500 there, before any write.
- Reporting.Stats: counters are never missing in the model, so the source's `|| 0` defaults have no case of their own.

## Findings

| source | as written | input that shows it | evidently intended | confidence | as-written member | corrected member |
|---|---|---|---|---|---|---|
| admin-cli.js:248-249 | `commands[command]` also finds properties every object inherits, then calls their missing `execute` | `node admin-cli.js constructor` (likewise `toString`, `__proto__`, `valueOf`) | an unknown command is reported and help is shown | high, not executed | AdminCli.RunAsWritten, AdminCli.PrototypeNameCrashes | AdminCli.Run |
| server.js:364-377 | the booking reply uses the shorthand `originalPrice`, which the handler never declares, so it throws after the booking and the counters are written and answers 500 | any booking by an active member, for example the yearly checkout then a booking at 1500 | the reply confirms the stored booking | high, not executed | Server.CreateBookingAsWritten, Server.BookingFailsAfterWriting | Server.CreateBooking |

=== FILE: admin_cli.dfy ===
/** The admin command-line tool (admin-cli.js): commands over the two data
    files, which may not exist yet. Console text is modelled as the `Output`
    a command reports; CSV exports as the text they would write. */
module AdminCli {
  import opened Records
  import opened Store
  import opened Integrity
  import opened Reporting
  import opened Csv
  import Server
  import Policy

  /** The two data files: `None` when the file does not exist. */
  datatype Files = Files(members: Option<seq<Member>>, bookings: Option<seq<Booking>>)

  /** `readMembers()`: a missing file reads as an empty list. */
  function MembersIn(f: Files): seq<Member> {
    f.members.GetOr([])
  }

  /** `readBookings()`: a missing file reads as an empty list. */
  function BookingsIn(f: Files): seq<Booking> {
    f.bookings.GetOr([])
  }

  function Loaded(f: Files): State {
    State(MembersIn(f), BookingsIn(f))
  }

  /** Number and date rendering (`${n}`, `toLocaleDateString()`), left to the
      runtime. */
  datatype Formats = Formats(number: real -> string, date: nat -> string)

  datatype Command =
    | ListMembers | ListBookings | ShowStats | MemberInfo | MemberBookings
    | RemoveMember | ExportMembers | ExportBookings | ClearData | Help

  datatype Output =
    | Usage
    | UnknownCommand(name: string)
    | Crashed(name: string)
    | NeedEmail(command: string)
    | NoMembers
    | MemberList(members: seq<Member>)
    | NoBookings
    | BookingList(bookings: seq<Booking>)
    | Report(summary: Summary)
    | MemberNotFound(email: string)
    | MemberDetails(member: Member)
    | NoBookingsFor(email: string)
    | MemberBookingList(email: string, bookings: seq<Booking>)
    | Removed(email: string)
    | Exported(path: string, text: string)
    | ClearRefused
    | Cleared

  /** The files a command leaves behind and what it prints. */
  datatype Outcome = Outcome(files: Files, output: Output)

  /** The keys of the `commands` table. */
  function NameOf(c: Command): string {
    match c
    case ListMembers => "list-members"
    case ListBookings => "list-bookings"
    case ShowStats => "stats"
    case MemberInfo => "member-info"
    case MemberBookings => "member-bookings"
    case RemoveMember => "remove-member"
    case ExportMembers => "export-members"
    case ExportBookings => "export-bookings"
    case ClearData => "clear-data"
    case Help => "help"
  }

  /** The command an argument names, as an own key of the table. */
  function Named(name: string): (r: Option<Command>)
    ensures r.Some? ==> NameOf(r.value) == name
  {
    if name == "list-members" then Some(ListMembers)
    else if name == "list-bookings" then Some(ListBookings)
    else if name == "stats" then Some(ShowStats)
    else if name == "member-info" then Some(MemberInfo)
    else if name == "member-bookings" then Some(MemberBookings)
    else if name == "remove-member" then Some(RemoveMember)
    else if name == "export-members" then Some(ExportMembers)
    else if name == "export-bookings" then Some(ExportBookings)
    else if name == "clear-data" then Some(ClearData)
    else if name == "help" then Some(Help)
    else None
  }

  /** Every command is reachable by its own name, and by no other. */
  lemma NamedInverse(c: Command, name: string)
    ensures Named(NameOf(c)) == Some(c)
    ensures Named(name) == Some(c) <==> name == NameOf(c)
  {
  }

  /** Properties every JavaScript object inherits from `Object.prototype`;
      `commands[name]` finds them although they are not commands. */
  const PrototypeNames: set<string> := {
    "constructor", "__proto__", "hasOwnProperty", "isPrototypeOf", "propertyIsEnumerable",
    "toString", "toLocaleString", "valueOf",
    "__defineGetter__", "__defineSetter__", "__lookupGetter__", "__lookupSetter__"
  }

  /** `process.argv[2] || 'help'`. */
  function CommandName(arg: Option<string>): string {
    if Truthy(arg) then arg.value else "help"
  }

  // ---------------------------------------------------------------------------
  // The commands.

  function ListMembersOutput(f: Files): (out: Output)
    ensures MembersIn(f) == [] <==> out == NoMembers
    ensures out != NoMembers ==> out == MemberList(MembersIn(f))
  {
    if MembersIn(f) == [] then NoMembers else MemberList(MembersIn(f))
  }

  function ListBookingsOutput(f: Files): (out: Output)
    ensures BookingsIn(f) == [] <==> out == NoBookings
    ensures out != NoBookings ==> out == BookingList(BookingsIn(f))
  {
    if BookingsIn(f) == [] then NoBookings else BookingList(BookingsIn(f))
  }

  /** `member-info <email>`: the first member with the email. */
  function MemberInfoOutput(f: Files, email: Option<string>): (out: Output)
    ensures !Truthy(email) <==> out == NeedEmail("member-info")
    ensures Truthy(email) ==> (out == MemberNotFound(email.value) <==> !HasEmail(MembersIn(f), email.value))
    ensures out.MemberDetails? ==> out.member.email == email.value && out.member in MembersIn(f)
    ensures Truthy(email) && HasEmail(MembersIn(f), email.value) ==>
      out == MemberDetails(MembersIn(f)[FindEmail(MembersIn(f), email.value).value])
  {
    if !Truthy(email) then NeedEmail("member-info")
    else match FindEmail(MembersIn(f), email.value)
      case None => MemberNotFound(email.value)
      case Some(i) => MemberDetails(MembersIn(f)[i])
  }

  /** `member-info` shows the member GET /api/membership/:email answers
      with, and reports "not found" exactly when that request fails. */
  lemma MemberInfoAgreesWithGet(f: Files, email: string)
    requires email != ""
    ensures MemberInfoOutput(f, Some(email)) == MemberNotFound(email) <==> Server.Get(Loaded(f), email).Fail?
    ensures Server.Get(Loaded(f), email).Ok? ==>
      MemberInfoOutput(f, Some(email)) == MemberDetails(Server.Get(Loaded(f), email).value)
  {
  }

  /** `member-bookings <email>`: the bookings with the email, in storage
      order, or a "no bookings" line when there are none. */
  function MemberBookingsOutput(f: Files, email: Option<string>): (out: Output)
    ensures !Truthy(email) <==> out == NeedEmail("member-bookings")
    ensures Truthy(email) ==>
      (out == NoBookingsFor(email.value) <==> forall b :: b in BookingsIn(f) ==> b.email != email.value)
    ensures out.MemberBookingList? ==>
      && out.email == email.value && out.bookings != []
      && forall b :: b in out.bookings <==> b in BookingsIn(f) && b.email == email.value
    ensures Truthy(email) && out != NoBookingsFor(email.value) ==>
      out == MemberBookingList(email.value, Select(BookingsIn(f), ByEmail(email.value)))
  {
    if !Truthy(email) then NeedEmail("member-bookings")
    else
      var found := Select(BookingsIn(f), ByEmail(email.value));
      if found == [] then NoBookingsFor(email.value)
      else
        assert found[0] in BookingsIn(f);
        MemberBookingList(email.value, found)
  }

  /** `remove-member <email>`: drop every member with the email and rewrite
      the members file; bookings are never touched. */
  function RemoveMemberCommand(f: Files, email: Option<string>): (r: Outcome)
    ensures r.files.bookings == f.bookings
    ensures !Truthy(email) ==> r == Outcome(f, NeedEmail("remove-member"))
    ensures Truthy(email) ==>
      (r.output == MemberNotFound(email.value) <==> !HasEmail(MembersIn(f), email.value))
    ensures r.output.MemberNotFound? ==> r.files == f
    ensures r.output.Removed? ==>
      && r.output == Removed(email.value)
      && r.files.members.Some?
      && |r.files.members.value| < |MembersIn(f)|
      && !HasEmail(r.files.members.value, email.value)
      && forall m :: m in r.files.members.value <==> m in MembersIn(f) && m.email != email.value
    ensures Truthy(email) && HasEmail(MembersIn(f), email.value) ==>
      r == Outcome(f.(members := Some(Without(MembersIn(f), email.value))), Removed(email.value))
  {
    if !Truthy(email) then Outcome(f, NeedEmail("remove-member"))
    else
      var e := email.value;
      var kept := Without(MembersIn(f), e);
      WithoutShortens(MembersIn(f), e);
      if |kept| == |MembersIn(f)| then Outcome(f, MemberNotFound(e))
      else
        Outcome(f.(members := Some(kept)), Removed(e))
  }

  /** `clear-data`: only with `--yes` are both files emptied. */
  function ClearDataCommand(f: Files, confirm: Option<string>): (r: Outcome)
    ensures confirm != Some("--yes") ==> r == Outcome(f, ClearRefused)
    ensures confirm == Some("--yes") ==> r.output == Cleared && Loaded(r.files) == Empty
    ensures confirm == Some("--yes") ==> r.files.members.Some? && r.files.bookings.Some?
  {
    if confirm == Some("--yes") then Outcome(Files(Some([]), Some([])), Cleared)
    else Outcome(f, ClearRefused)
  }

  /** A template slot: an absent field prints as "undefined". */
  function Slot(field: Option<string>): string {
    field.GetOr("undefined")
  }

  function StatusText(s: Status): string {
    match s
    case Active => "active"
    case Cancelled => "cancelled"
    case Inactive => "inactive"
  }

  /** The column names of the two exports, in order. */
  const MemberColumns: seq<string> := ["Email", "Name", "Plan", "Status", "Bookings", "Savings", "Joined"]

  const BookingColumns: seq<string> := ["Email", "Ground", "Date", "Time", "Price", "Discount", "Status"]

  /** The CSV headers, "Email,Name,Plan,Status,Bookings,Savings,Joined" and
      "Email,Ground,Date,Time,Price,Discount,Status". */
  const MembersHeader := JoinWith(MemberColumns, ',')

  const BookingsHeader := JoinWith(BookingColumns, ',')

  /** `"${x}"`: a value between double quotes. */
  function Quoted(x: string): string {
    "\"" + x + "\""
  }

  /** `\u20B9${x}`: an amount after the rupee sign. */
  function Rupees(x: string): string {
    "\U{20B9}" + x
  }

  /** The values a member's export line holds, in column order. */
  function MemberValues(m: Member, fmt: Formats): seq<string> {
    [m.email, Quoted(m.fullName), Slot(m.plan), StatusText(m.status),
     fmt.number(m.totalBookings as real), fmt.number(m.totalSavings), Quoted(fmt.date(m.createdAt))]
  }

  /** The values a booking's export line holds, in column order. */
  function BookingValues(b: Booking, fmt: Formats): seq<string> {
    [b.email, Quoted(Slot(b.groundName)), Slot(b.bookingDate), Slot(b.timeSlot),
     Rupees(fmt.number(b.originalPrice)), Rupees(fmt.number(b.discount)), "confirmed"]
  }

  /** One line of the members export: the email first and the quoted
      joining date last, with the values between them comma-separated. */
  function MemberRow(m: Member, fmt: Formats): (row: string)
    ensures |row| > |m.email| && row[..|m.email| + 1] == m.email + ","
    ensures row[|row| - 1] == '"'
  {
    var values := MemberValues(m, fmt);
    var row := JoinWith(values, ',');
    JoinWithLast(values, ',');
    assert row == values[0] + [','] + JoinWith(values[1..], ',');
    assert row[..|m.email| + 1] == m.email + ",";
    row
  }

  /** One line of the bookings export: the email first and the status last,
      with the values between them comma-separated. */
  function BookingRow(b: Booking, fmt: Formats): (row: string)
    ensures |row| > |b.email| && row[..|b.email| + 1] == b.email + ","
    ensures |row| >= 10 && row[|row| - 10..] == ",confirmed"
  {
    var values := BookingValues(b, fmt);
    var row := JoinWith(values, ',');
    JoinWithLast(values, ',');
    assert row == values[0] + [','] + JoinWith(values[1..], ',');
    assert row[..|b.email| + 1] == b.email + ",";
    assert row[|row| - 10..] == [','] + "confirmed";
    row
  }

  /** Read back at its commas, a member's line is its seven values in the
      header's column order, when no value holds a comma. */
  lemma MemberRowFields(m: Member, fmt: Formats)
    requires OneField(m.email) && OneField(m.fullName) && OneField(Slot(m.plan))
    requires OneField(fmt.number(m.totalBookings as real)) && OneField(fmt.number(m.totalSavings))
    requires OneField(fmt.date(m.createdAt))
    ensures Fields(MemberRow(m, fmt)) ==
      [m.email, Quoted(m.fullName), Slot(m.plan), StatusText(m.status),
       fmt.number(m.totalBookings as real), fmt.number(m.totalSavings), Quoted(fmt.date(m.createdAt))]
    ensures |Fields(MemberRow(m, fmt))| == |Fields(MembersHeader)| == 7
  {
    var values := MemberValues(m, fmt);
    assert forall i :: 0 <= i < |values| ==> ',' !in values[i];
    SplitOfJoin(values, ',');
    MembersHeaderFields();
  }

  /** Read back at its commas, a booking's line is its seven values in the
      header's column order, when no value holds a comma. */
  lemma BookingRowFields(b: Booking, fmt: Formats)
    requires OneField(b.email) && OneField(Slot(b.groundName)) && OneField(Slot(b.bookingDate))
    requires OneField(Slot(b.timeSlot))
    requires OneField(fmt.number(b.originalPrice)) && OneField(fmt.number(b.discount))
    ensures Fields(BookingRow(b, fmt)) ==
      [b.email, Quoted(Slot(b.groundName)), Slot(b.bookingDate), Slot(b.timeSlot),
       Rupees(fmt.number(b.originalPrice)), Rupees(fmt.number(b.discount)), "confirmed"]
    ensures |Fields(BookingRow(b, fmt))| == |Fields(BookingsHeader)| == 7
  {
    var values := BookingValues(b, fmt);
    assert forall i :: 0 <= i < |values| ==> ',' !in values[i];
    SplitOfJoin(values, ',');
    BookingsHeaderFields();
  }

  /** The members header reads back as its seven column names. */
  lemma MembersHeaderFields()
    ensures Fields(MembersHeader) == MemberColumns
  {
    assert forall i :: 0 <= i < |MemberColumns| ==> ',' !in MemberColumns[i];
    SplitOfJoin(MemberColumns, ',');
  }

  /** The bookings header reads back as its seven column names. */
  lemma BookingsHeaderFields()
    ensures Fields(BookingsHeader) == BookingColumns
  {
    assert forall i :: 0 <= i < |BookingColumns| ==> ',' !in BookingColumns[i];
    SplitOfJoin(BookingColumns, ',');
  }

  /** A member's export row is one line when none of its text fields and
      none of the rendered values holds a newline. */
  lemma MemberRowIsOneLine(m: Member, fmt: Formats)
    requires OneLine(m.email) && OneLine(m.fullName) && OneLine(Slot(m.plan))
    requires OneLine(fmt.number(m.totalBookings as real)) && OneLine(fmt.number(m.totalSavings))
    requires OneLine(fmt.date(m.createdAt))
    ensures OneLine(MemberRow(m, fmt))
  {
    var values := MemberValues(m, fmt);
    assert forall i :: 0 <= i < |values| ==> '\n' !in values[i];
    JoinKeepsOut(values, ',', '\n');
  }

  /** A booking's export row is one line when none of its text fields and
      none of the rendered amounts holds a newline. */
  lemma BookingRowIsOneLine(b: Booking, fmt: Formats)
    requires OneLine(b.email) && OneLine(Slot(b.groundName)) && OneLine(Slot(b.bookingDate)) && OneLine(Slot(b.timeSlot))
    requires OneLine(fmt.number(b.originalPrice)) && OneLine(fmt.number(b.discount))
    ensures OneLine(BookingRow(b, fmt))
  {
    var values := BookingValues(b, fmt);
    assert forall i :: 0 <= i < |values| ==> '\n' !in values[i];
    JoinKeepsOut(values, ',', '\n');
  }

  function MemberRows(ms: seq<Member>, fmt: Formats): (rows: seq<string>)
    ensures |rows| == |ms|
    ensures forall i :: 0 <= i < |ms| ==> rows[i] == MemberRow(ms[i], fmt)
  {
    seq(|ms|, i requires 0 <= i < |ms| => MemberRow(ms[i], fmt))
  }

  function BookingRows(bs: seq<Booking>, fmt: Formats): (rows: seq<string>)
    ensures |rows| == |bs|
    ensures forall i :: 0 <= i < |bs| ==> rows[i] == BookingRow(bs[i], fmt)
  {
    seq(|bs|, i requires 0 <= i < |bs| => BookingRow(bs[i], fmt))
  }

  /** A CSV text: the header line, a newline, then the rows joined by
      newlines (so an empty collection leaves a trailing newline). */
  function Table(header: string, rows: seq<string>): (text: string)
    ensures |text| >= |header| + 1 && text[..|header| + 1] == header + "\n"
  {
    var text := header + "\n" + Join(rows);
    assert text[..|header| + 1] == header + "\n";
    text
  }

  lemma MembersHeaderIsOneLine()
    ensures OneLine(MembersHeader)
  {
    assert forall i :: 0 <= i < |MemberColumns| ==> '\n' !in MemberColumns[i];
    JoinKeepsOut(MemberColumns, ',', '\n');
  }

  lemma BookingsHeaderIsOneLine()
    ensures OneLine(BookingsHeader)
  {
    assert forall i :: 0 <= i < |BookingColumns| ==> '\n' !in BookingColumns[i];
    JoinKeepsOut(BookingColumns, ',', '\n');
  }

  /** Reading an export back line by line gives the header and then one row
      per record, in storage order, whenever no field holds a newline. */
  lemma TableReadsBack(header: string, rows: seq<string>)
    requires OneLine(header) && forall i :: 0 <= i < |rows| ==> OneLine(rows[i])
    ensures Lines(Table(header, rows)) == [header] + (if rows == [] then [""] else rows)
    ensures var lines := Lines(Table(header, rows));
      lines[0] == header && (rows != [] ==> |lines| == |rows| + 1 && forall i :: 0 <= i < |rows| ==> lines[i + 1] == rows[i])
  {
    SplitOfFirst(header, '\n', Join(rows));
    if rows != [] {
      SplitOfJoin(rows, '\n');
    }
  }

  /** `export-bookings`: one row per booking, in storage order. */
  lemma ExportBookingsReadsBack(bs: seq<Booking>, fmt: Formats)
    requires forall i :: 0 <= i < |bs| ==> OneLine(BookingRow(bs[i], fmt))
    ensures var lines := Lines(Table(BookingsHeader, BookingRows(bs, fmt)));
      && lines[0] == BookingsHeader
      && (bs != [] ==> |lines| == |bs| + 1 && forall i :: 0 <= i < |bs| ==> lines[i + 1] == BookingRow(bs[i], fmt))
  {
    var rows := BookingRows(bs, fmt);
    assert forall i :: 0 <= i < |rows| ==> OneLine(rows[i]);
    BookingsHeaderIsOneLine();
    TableReadsBack(BookingsHeader, rows);
  }

  /** `export-members`: one row per member, in storage order. */
  lemma ExportMembersReadsBack(ms: seq<Member>, fmt: Formats)
    requires forall i :: 0 <= i < |ms| ==> OneLine(MemberRow(ms[i], fmt))
    ensures var lines := Lines(Table(MembersHeader, MemberRows(ms, fmt)));
      && lines[0] == MembersHeader
      && (ms != [] ==> |lines| == |ms| + 1 && forall i :: 0 <= i < |ms| ==> lines[i + 1] == MemberRow(ms[i], fmt))
  {
    var rows := MemberRows(ms, fmt);
    assert forall i :: 0 <= i < |rows| ==> OneLine(rows[i]);
    MembersHeaderIsOneLine();
    TableReadsBack(MembersHeader, rows);
  }

  /** The `execute` of each entry in the command table. Only the two
      writers may change the files, nothing crashes, usage is printed by
      `help` alone, and the exports name their files. */
  function Execute(c: Command, option: Option<string>, f: Files, fmt: Formats): (r: Outcome)
    ensures r.files != f ==> c == RemoveMember || c == ClearData
    ensures !r.output.Crashed? && !r.output.UnknownCommand?
    ensures r.output == Usage <==> c == Help
    ensures r.output.Exported? <==> c == ExportMembers || c == ExportBookings
    ensures c == ExportMembers ==> r.output.path == "members-export.csv"
    ensures c == ExportBookings ==> r.output.path == "bookings-export.csv"
    ensures c == ListMembers ==> r == Outcome(f, ListMembersOutput(f))
    ensures c == ListBookings ==> r == Outcome(f, ListBookingsOutput(f))
    ensures c == ShowStats ==> r == Outcome(f, Report(Stats(Loaded(f))))
    ensures c == MemberInfo ==> r == Outcome(f, MemberInfoOutput(f, option))
    ensures c == MemberBookings ==> r == Outcome(f, MemberBookingsOutput(f, option))
    ensures c == RemoveMember ==> r == RemoveMemberCommand(f, option)
    ensures c == ClearData ==> r == ClearDataCommand(f, option)
    ensures c == ExportMembers ==> r.output.text == Table(MembersHeader, MemberRows(MembersIn(f), fmt))
    ensures c == ExportBookings ==> r.output.text == Table(BookingsHeader, BookingRows(BookingsIn(f), fmt))
  {
    match c
    case Help => Outcome(f, Usage)
    case ListMembers => Outcome(f, ListMembersOutput(f))
    case ListBookings => Outcome(f, ListBookingsOutput(f))
    case ShowStats => Outcome(f, Report(Stats(Loaded(f))))
    case MemberInfo => Outcome(f, MemberInfoOutput(f, option))
    case MemberBookings => Outcome(f, MemberBookingsOutput(f, option))
    case RemoveMember => RemoveMemberCommand(f, option)
    case ExportMembers => Outcome(f, Exported("members-export.csv", Table(MembersHeader, MemberRows(MembersIn(f), fmt))))
    case ExportBookings => Outcome(f, Exported("bookings-export.csv", Table(BookingsHeader, BookingRows(BookingsIn(f), fmt))))
    case ClearData => ClearDataCommand(f, option)
  }

  /** What `export-bookings` writes reads back as the header and then one row
      per stored booking, in storage order. */
  lemma ExportBookingsCommandReadsBack(f: Files, option: Option<string>, fmt: Formats)
    requires forall i :: 0 <= i < |BookingsIn(f)| ==> OneLine(BookingRow(BookingsIn(f)[i], fmt))
    ensures var out := Execute(ExportBookings, option, f, fmt).output;
      && out == Exported("bookings-export.csv", out.text)
      && Lines(out.text)[0] == BookingsHeader
      && (BookingsIn(f) != [] ==>
           |Lines(out.text)| == |BookingsIn(f)| + 1
           && forall i :: 0 <= i < |BookingsIn(f)| ==> Lines(out.text)[i + 1] == BookingRow(BookingsIn(f)[i], fmt))
  {
    ExportBookingsReadsBack(BookingsIn(f), fmt);
  }

  /** What `export-members` writes reads back as the header and then one row
      per stored member, in storage order. */
  lemma ExportMembersCommandReadsBack(f: Files, option: Option<string>, fmt: Formats)
    requires forall i :: 0 <= i < |MembersIn(f)| ==> OneLine(MemberRow(MembersIn(f)[i], fmt))
    ensures var out := Execute(ExportMembers, option, f, fmt).output;
      && out == Exported("members-export.csv", out.text)
      && Lines(out.text)[0] == MembersHeader
      && (MembersIn(f) != [] ==>
           |Lines(out.text)| == |MembersIn(f)| + 1
           && forall i :: 0 <= i < |MembersIn(f)| ==> Lines(out.text)[i + 1] == MemberRow(MembersIn(f)[i], fmt))
  {
    ExportMembersReadsBack(MembersIn(f), fmt);
  }

  /** No inherited property shares its name with a command. */
  lemma PrototypeNamesAreNotCommands(name: string)
    ensures name in PrototypeNames ==> Named(name).None?
  {
  }

  /** What a command does never crashes, and help writes nothing. */
  lemma ExecuteNeverCrashes(c: Command, option: Option<string>, f: Files, fmt: Formats)
    ensures !Execute(c, option, f, fmt).output.Crashed?
    ensures Execute(c, option, f, fmt).output.Usage? ==> Execute(c, option, f, fmt).files == f
  {
  }

  /** The dispatch as written: `commands[command]` also finds the inherited
      `Object.prototype` properties, whose missing `execute` throws. */
  function RunAsWritten(f: Files, command: Option<string>, option: Option<string>, fmt: Formats): (r: Outcome)
    ensures Named(CommandName(command)).None? ==> r.files == f
    ensures CommandName(command) in PrototypeNames ==> r.output == Crashed(CommandName(command))
    ensures Named(CommandName(command)).None? && CommandName(command) !in PrototypeNames ==>
      r == Outcome(f, UnknownCommand(CommandName(command)))
    ensures Named(CommandName(command)).Some? ==> r == Execute(Named(CommandName(command)).value, option, f, fmt)
  {
    var name := CommandName(command);
    PrototypeNamesAreNotCommands(name);
    match Named(name)
    case Some(c) => Execute(c, option, f, fmt)
    case None => if name in PrototypeNames then Outcome(f, Crashed(name)) else Outcome(f, UnknownCommand(name))
  }

  /** The dispatch the help text promises: a missing command shows help, an
      unknown one is reported and followed by help, and neither touches the
      files. */
  function Run(f: Files, command: Option<string>, option: Option<string>, fmt: Formats): (r: Outcome)
    ensures !Truthy(command) ==> r == Outcome(f, Usage)
    ensures Truthy(command) && Named(command.value).None? ==> r == Outcome(f, UnknownCommand(command.value))
    ensures !r.output.Crashed?
    ensures r.output.Usage? || r.output.UnknownCommand? ==> r.files == f
    ensures Named(CommandName(command)).Some? ==> r == Execute(Named(CommandName(command)).value, option, f, fmt)
  {
    var name := CommandName(command);
    match Named(name)
    case Some(c) =>
      ExecuteNeverCrashes(c, option, f, fmt);
      Execute(c, option, f, fmt)
    case None => Outcome(f, UnknownCommand(name))
  }

  /** `node admin-cli.js constructor` crashes as written, where the intended
      dispatch reports an unknown command and shows help. */
  lemma PrototypeNameCrashes(f: Files, option: Option<string>, fmt: Formats)
    ensures RunAsWritten(f, Some("constructor"), option, fmt).output == Crashed("constructor")
    ensures Run(f, Some("constructor"), option, fmt).output == UnknownCommand("constructor")
  {
  }

  /** Only the commands that write change the files: `remove-member` and
      `clear-data`. */
  lemma OnlyWritersChangeFiles(c: Command, option: Option<string>, f: Files, fmt: Formats)
    requires c != RemoveMember && c != ClearData
    ensures Execute(c, option, f, fmt).files == f
  {
  }

  /** The CLI's writers keep a consistent store consistent: removal leaves
      the bookings of removed members behind as orphans without unbalancing
      anyone else, and clearing leaves nothing. */
  lemma WritersKeepConsistent(c: Command, option: Option<string>, f: Files, fmt: Formats)
    requires Consistent(Loaded(f))
    ensures Consistent(Loaded(Execute(c, option, f, fmt).files))
  {
    if c == RemoveMember && Truthy(option) {
      WithoutKeepsConsistent(Loaded(f), option.value);
    }
  }

  /** Removing a member keeps its bookings: the member-bookings listing for
      the removed email is unchanged. */
  lemma RemovalOrphansBookings(f: Files, email: Option<string>)
    requires Truthy(email)
    ensures var r := RemoveMemberCommand(f, email);
      MemberBookingsOutput(r.files, email) == MemberBookingsOutput(f, email)
  {
  }

  /** With no data files yet, every reading command reports an empty store
      and no command but `clear-data --yes` creates a file. */
  lemma MissingFilesReadEmpty(c: Command, option: Option<string>, fmt: Formats)
    ensures var r := Execute(c, option, Files(None, None), fmt);
      && (c == ListMembers ==> r.output == NoMembers)
      && (c == ListBookings ==> r.output == NoBookings)
      && (c == ShowStats ==> r.output == Report(Summary(0, 0, 0, 0, 0, 0.0, 0.0)))
      && (c == RemoveMember && Truthy(option) ==> r.output == MemberNotFound(option.value))
      && (!(c == ClearData && option == Some("--yes")) ==> r.files == Files(None, None))
  {
    var f := Files(None, None);
    assert Loaded(f) == Empty;
    if c == RemoveMember && Truthy(option) {
      assert !HasEmail(MembersIn(f), option.value);
    }
  }

  /** The CLI's statistics: the active, monthly and yearly counts of the
      members file, savings summed over members, and the average taken over
      at least one member. */
  lemma CliStatsBounds(f: Files, option: Option<string>, fmt: Formats)
    ensures var out := Execute(ShowStats, option, f, fmt).output;
      && out.Report?
      && out.summary.activeMembers == Count(MembersIn(f), IsActive) <= |MembersIn(f)|
      && out.summary.monthlyMembers == Count(MembersIn(f), OnPlan(Policy.MonthlyPlan))
      && out.summary.yearlyMembers == Count(MembersIn(f), OnPlan(Policy.YearlyPlan))
      && out.summary.monthlyMembers + out.summary.yearlyMembers <= |MembersIn(f)|
      && out.summary.totalRevenue == SavingsTotal(MembersIn(f))
      && out.summary.totalBookings == |BookingsIn(f)|
      && out.summary.averageBookingsPerMember == Average(|BookingsIn(f)|, Divisor(MembersIn(f)))
  {
  }
}

=== FILE: csv.dfy ===
/** Separator-joined text, as the CSV exports build it (`.join('\n')` for
    lines, template commas for fields), and the split that reads it back. */
module Csv {

  /** `parts.join(sep)`: one separator between neighbours and none after the
      last. */
  function JoinWith(parts: seq<string>, sep: char): (text: string)
    ensures parts == [] ==> text == ""
    ensures |parts| == 1 ==> text == parts[0]
  {
    if parts == [] then ""
    else if |parts| == 1 then parts[0]
    else parts[0] + [sep] + JoinWith(parts[1..], sep)
  }

  /** The pieces of a text, cut at every `sep` (`text.split(sep)`; an empty
      text is one empty piece). */
  function Split(text: string, sep: char): (r: seq<string>)
    ensures |r| >= 1
  {
    if text == [] then [""]
    else
      var rest := Split(text[1..], sep);
      if text[0] == sep then [""] + rest else [[text[0]] + rest[0]] + rest[1..]
  }

  /** `lines.join('\n')`. */
  function Join(lines: seq<string>): string {
    JoinWith(lines, '\n')
  }

  /** `text.split('\n')`. */
  function Lines(text: string): seq<string> {
    Split(text, '\n')
  }

  /** The comma-separated fields of one CSV line. */
  function Fields(line: string): seq<string> {
    Split(line, ',')
  }

  predicate OneLine(s: string) {
    '\n' !in s
  }

  predicate OneField(s: string) {
    ',' !in s
  }

  lemma {:induction false} SplitOfPlain(a: string, sep: char)
    requires sep !in a
    ensures Split(a, sep) == [a]
  {
    if a != [] {
      SplitOfPlain(a[1..], sep);
      assert [a[0]] + a[1..] == a;
    }
  }

  lemma {:induction false} SplitOfFirst(a: string, sep: char, rest: string)
    requires sep !in a
    ensures Split(a + [sep] + rest, sep) == [a] + Split(rest, sep)
  {
    var t := a + [sep] + rest;
    if a == [] {
      assert t == [sep] + rest;
      assert t[1..] == rest;
    } else {
      assert t[1..] == a[1..] + [sep] + rest;
      SplitOfFirst(a[1..], sep, rest);
      assert [a[0]] + a[1..] == a;
    }
  }

  /** Splitting a join of separator-free parts gives the parts back. */
  lemma {:induction false} SplitOfJoin(parts: seq<string>, sep: char)
    requires |parts| >= 1
    requires forall i :: 0 <= i < |parts| ==> sep !in parts[i]
    ensures Split(JoinWith(parts, sep), sep) == parts
  {
    if |parts| == 1 {
      SplitOfPlain(parts[0], sep);
    } else {
      SplitOfJoin(parts[1..], sep);
      SplitOfFirst(parts[0], sep, JoinWith(parts[1..], sep));
      assert [parts[0]] + parts[1..] == parts;
    }
  }

  /** Joining is also peeled from the back: the last part follows the last
      separator. */
  lemma {:induction false} JoinWithLast(parts: seq<string>, sep: char)
    requires |parts| >= 2
    ensures JoinWith(parts, sep) == JoinWith(parts[..|parts| - 1], sep) + [sep] + parts[|parts| - 1]
  {
    var n := |parts|;
    var init := parts[..n - 1];
    if n == 2 {
      assert parts[1..] == [parts[1]];
      assert init == [parts[0]];
    } else {
      var tail := parts[1..];
      JoinWithLast(tail, sep);
      assert tail[..|tail| - 1] == init[1..];
      assert tail[|tail| - 1] == parts[n - 1];
      assert init[0] == parts[0];
      calc {
        JoinWith(parts, sep);
        parts[0] + [sep] + JoinWith(tail, sep);
        parts[0] + [sep] + (JoinWith(init[1..], sep) + [sep] + parts[n - 1]);
        (init[0] + [sep] + JoinWith(init[1..], sep)) + [sep] + parts[n - 1];
        JoinWith(init, sep) + [sep] + parts[n - 1];
      }
    }
  }

  /** Parts free of the separator join with exactly one separator fewer
      than there are parts. */
  lemma {:induction false} SeparatorCount(parts: seq<string>, sep: char)
    requires parts != []
    requires forall i :: 0 <= i < |parts| ==> sep !in parts[i]
    ensures multiset(JoinWith(parts, sep))[sep] == |parts| - 1
  {
    if |parts| > 1 {
      SeparatorCount(parts[1..], sep);
      assert parts[0] + [sep] + JoinWith(parts[1..], sep) == JoinWith(parts, sep);
      assert multiset(parts[0])[sep] == 0;
    }
  }

  /** Joining adds no character but the separator. */
  lemma {:induction false} JoinKeepsOut(parts: seq<string>, sep: char, c: char)
    requires c != sep
    requires forall i :: 0 <= i < |parts| ==> c !in parts[i]
    ensures c !in JoinWith(parts, sep)
  {
    if |parts| > 1 {
      JoinKeepsOut(parts[1..], sep, c);
    }
  }
}

=== FILE: flask_app.dfy ===
/** The table-backed Flask service (backend/app.py): signup, login, verify,
    checkout and booking as transitions over the members and bookings tables.
    A query `.eq(...)` is modelled as returning the matching rows in storage
    order (the table itself promises no order without `.order()`);
    `.update(...).eq(...)` rewrites every matching row. */
module FlaskApp {
  import opened Records
  import opened Store
  import opened Text
  import opened Integrity
  import Policy

  datatype SignupForm = SignupForm(
    fullName: Option<string>,
    email: Option<string>,
    phone: Option<string>,
    password: Option<string>)

  /** The user a successful login answers with. */
  datatype Session = Session(id: string, email: string, fullName: string, isAdmin: bool)

  /** The verify reply; the discount defaults to 0 when the row has none. */
  datatype Verdict = ActiveMember(plan: Option<string>, discountPercentage: int) | NotActive

  /** The booking's `price` field: a number, absent, or something `float()`
      rejects. */
  datatype Price = Number(amount: real) | Missing | Unparsable

  const AdminEmails: seq<string> := ["admin@groundbooking.com", "owner@groundbooking.com", "sahayahelvin0806@gmail.com"]

  /** `float(data.get('price', 0))`, with 0.0 for what it rejects. */
  function PriceValue(p: Price): (v: real)
    ensures p.Number? ==> v == p.amount
    ensures !p.Number? ==> v == 0.0
  {
    match p
    case Number(v) => v
    case Missing => 0.0
    case Unparsable => 0.0
  }

  /** POST /api/auth/signup: insert an inactive member under the normalised
      email, unless that email is taken. */
  function Signup(s: State, f: SignupForm, id: string, now: nat): (r: Step<()>)
    ensures r.reply == Fail(ValidationError) <==>
      !(f.fullName.Some? && f.email.Some? && f.phone.Some? && f.password.Some?)
    ensures r.reply == Fail(AlreadyExists) <==>
      f.fullName.Some? && f.email.Some? && f.phone.Some? && f.password.Some? && HasEmail(s.members, Normalize(f.email.value))
    ensures r.reply.Ok? <==>
      f.fullName.Some? && f.email.Some? && f.phone.Some? && f.password.Some? && !HasEmail(s.members, Normalize(f.email.value))
    ensures r.reply.Fail? ==> r.state == s
    ensures r.state.bookings == s.bookings
    ensures r.reply.Ok? ==>
      && |r.state.members| == |s.members| + 1
      && r.state.members[..|s.members|] == s.members
      && var m := r.state.members[|s.members|];
      && m.id == id && m.email == Normalize(f.email.value)
      && m.fullName == f.fullName.value && m.phone == f.phone.value && m.password == f.password
      && m.status == Inactive && m.plan.None? && m.discountPercentage.None?
      && m.totalBookings == 0 && m.totalSavings == 0.0 && m.createdAt == now
      && m.address == NoAddress && m.purchasedAt.None? && m.renewal.None?
      && m.updatedAt.None? && m.cancelledAt.None?
  {
    if !(f.fullName.Some? && f.email.Some? && f.phone.Some? && f.password.Some?) then Step(s, Fail(ValidationError))
    else
      var e := Normalize(f.email.value);
      if HasEmail(s.members, e) then Step(s, Fail(AlreadyExists))
      else
        var m := Member(id, f.fullName.value, e, f.phone.value, NoAddress, f.password, None, Inactive,
                        None, None, None, 0, 0.0, now, None, None);
        var ms' := s.members + [m];
        assert ms'[..|s.members|] == s.members;
        Step(s.(members := ms'), Ok(()))
  }

  /** POST /api/auth/login: the first member with the normalised email and
      this exact password; admin when that email is on the fixed list. */
  function Login(s: State, email: Option<string>, password: Option<string>): (r: Reply<Session>)
    ensures r == Fail(ValidationError) <==> Normalize(email.GetOr("")) == "" || !Truthy(password)
    ensures r == Fail(Unauthorized) <==>
      Normalize(email.GetOr("")) != "" && Truthy(password) && !HasCredentials(s.members, Normalize(email.GetOr("")), password.value)
    ensures r.Ok? <==>
      Normalize(email.GetOr("")) != "" && Truthy(password) && HasCredentials(s.members, Normalize(email.GetOr("")), password.value)
    ensures r.Ok? ==>
      var m := s.members[FindCredentials(s.members, Normalize(email.GetOr("")), password.value).value];
      && r.value == Session(m.id, m.email, m.fullName, r.value.isAdmin)
      && m.email == Normalize(email.GetOr("")) && m.password == password
    ensures r.Ok? ==> (r.value.isAdmin <==> Normalize(email.GetOr("")) in AdminEmails)
  {
    var e := Normalize(email.GetOr(""));
    if e == "" || !Truthy(password) then Fail(ValidationError)
    else match FindCredentials(s.members, e, password.value)
      case None => Fail(Unauthorized)
      case Some(i) =>
        var m := s.members[i];
        LowerOfNormalized(email.GetOr(""));
        Ok(Session(m.id, m.email, m.fullName, Lower(m.email) in AdminEmails))
  }

  /** POST /api/membership/verify: is the first row with this email active? */
  function Verify(s: State, e: Option<string>): (r: Reply<Verdict>)
    ensures r.Fail? <==> !Truthy(e)
    ensures r.Fail? ==> r.error == ValidationError
    ensures r.Ok? ==>
      (r.value.ActiveMember? <==> FindEmail(s.members, e.value).Some? && s.members[FindEmail(s.members, e.value).value].status == Active)
    ensures r.Ok? && r.value.ActiveMember? ==>
      var m := s.members[FindEmail(s.members, e.value).value];
      && r.value.plan == m.plan
      && (m.discountPercentage.Some? ==> r.value.discountPercentage == m.discountPercentage.value)
      && (m.discountPercentage.None? ==> r.value.discountPercentage == 0)
  {
    if !Truthy(e) then Fail(ValidationError)
    else match FindEmail(s.members, e.value)
      case Some(i) =>
        var m := s.members[i];
        if m.status == Active then Ok(ActiveMember(m.plan, m.discountPercentage.GetOr(0))) else Ok(NotActive)
      case None => Ok(NotActive)
  }

  /** Checkout's validation: the four keys present, whatever their values. */
  predicate Present(f: CheckoutForm) {
    f.plan.Some? && f.fullName.Some? && f.email.Some? && f.phone.Some?
  }

  /** The columns checkout writes on both of its paths. */
  function Activate(m: Member, f: CheckoutForm, now: nat): Member
    requires Present(f)
  {
    m.(fullName := f.fullName.value, phone := f.phone.value, plan := Some(f.plan.value), status := Active,
       purchasedAt := Some(now), renewal := Some(Renewal(now, Policy.FlaskHorizon(f.plan.value))),
       discountPercentage := Some(Policy.MemberDiscount))
  }

  /** POST /api/membership/checkout: update every row with the email as
      given, or insert one. */
  function Checkout(s: State, f: CheckoutForm, id: string, now: nat): (r: Step<string>)
    ensures r.reply.Fail? <==> !Present(f)
    ensures r.reply.Fail? ==> r == Step(s, Fail(ValidationError))
    ensures r.state.bookings == s.bookings
    ensures r.reply.Ok? ==> r.reply.value == f.email.value
    ensures r.reply.Ok? && HasEmail(s.members, f.email.value) ==>
      && |r.state.members| == |s.members|
      && forall j :: 0 <= j < |s.members| ==>
        var m := s.members[j];
        var m' := r.state.members[j];
        && (m.email != f.email.value ==> m' == m)
        && (m.email == f.email.value ==>
             && m'.fullName == f.fullName.value && m'.phone == f.phone.value
             && m'.plan == f.plan && m'.status == Active && m'.discountPercentage == Some(20)
             && m'.purchasedAt == Some(now)
             && m'.renewal == Some(Renewal(now, if f.plan.value == "yearly" then Days(365) else Days(30)))
             && m' == m.(fullName := m'.fullName, phone := m'.phone, plan := m'.plan, status := Active,
                         purchasedAt := m'.purchasedAt, renewal := m'.renewal, discountPercentage := m'.discountPercentage))
    ensures r.reply.Ok? && !HasEmail(s.members, f.email.value) ==>
      && |r.state.members| == |s.members| + 1
      && r.state.members[..|s.members|] == s.members
      && var m := r.state.members[|s.members|];
      && m.id == id && m.email == f.email.value && m.fullName == f.fullName.value && m.phone == f.phone.value
      && m.plan == f.plan && m.status == Active && m.discountPercentage == Some(20)
      && m.password.None? && m.totalBookings == 0 && m.totalSavings == 0.0 && m.createdAt == now
      && m.purchasedAt == Some(now)
      && m.renewal == Some(Renewal(now, if f.plan.value == "yearly" then Days(365) else Days(30)))
      && m.address == NoAddress && m.updatedAt.None? && m.cancelledAt.None?
  {
    if !Present(f) then Step(s, Fail(ValidationError))
    else
      var e := f.email.value;
      if HasEmail(s.members, e) then
        var ms' := seq(|s.members|, j requires 0 <= j < |s.members| =>
                         if s.members[j].email == e then Activate(s.members[j], f, now) else s.members[j]);
        Step(s.(members := ms'), Ok(e))
      else
        var blank := Member(id, "", e, "", NoAddress, None, None, Inactive, None, None, None, 0, 0.0, now, None, None);
        var ms' := s.members + [Activate(blank, f, now)];
        assert ms'[..|s.members|] == s.members;
        Step(s.(members := ms'), Ok(e))
  }

  /** `.update(new_stats).eq("email", email)`: every row with the email gets
      the charged row's counters plus one booking and the discount. */
  function Credit(ms: seq<Member>, e: string, charged: Member, discount: real): (r: seq<Member>)
    ensures |r| == |ms|
    ensures forall j :: 0 <= j < |ms| && ms[j].email != e ==> r[j] == ms[j]
    ensures forall j :: 0 <= j < |ms| && ms[j].email == e ==>
      r[j] == ms[j].(totalBookings := charged.totalBookings + 1, totalSavings := charged.totalSavings + discount)
  {
    seq(|ms|, j requires 0 <= j < |ms| =>
          if ms[j].email == e
          then ms[j].(totalBookings := charged.totalBookings + 1, totalSavings := charged.totalSavings + discount)
          else ms[j])
  }

  /** POST /api/bookings: charge a booking to the first active row with the
      email, then write that row's counters plus one booking and the discount
      to every row with the email. */
  function CreateBooking(s: State, email: Option<string>, groundName: Option<string>, price: Price, id: string, now: nat): (r: Step<Booking>)
    ensures r.reply == Fail(Unauthorized) <==> !(email.Some? && HasActive(s.members, email.value))
    ensures r.reply.Fail? ==> r.state == s
    ensures r.reply == Fail(ServerError) <==>
      email.Some? && HasActive(s.members, email.value) && s.members[FindActive(s.members, email.value).value].discountPercentage.None?
    ensures r.reply.Ok? <==>
      email.Some? && HasActive(s.members, email.value) && s.members[FindActive(s.members, email.value).value].discountPercentage.Some?
    ensures r.reply.Ok? ==>
      var i := FindActive(s.members, email.value).value;
      var m := s.members[i];
      var b := r.reply.value;
      && m.discountPercentage.Some?
      && b.originalPrice == PriceValue(price)
      && b.discount == Policy.DiscountOn(PriceValue(price), m.discountPercentage.value)
      && b.finalPrice == b.originalPrice - b.discount
      && b.status == Confirmed && b.memberId == m.id && b.email == email.value && b.id == id
      && b.groundName == groundName && b.groundLocation.None? && b.bookingDate.None? && b.timeSlot.None?
      && r.state.bookings == s.bookings + [b]
      && r.state.members == Credit(s.members, email.value, m, b.discount)
  {
    if email.None? then Step(s, Fail(Unauthorized))
    else match FindActive(s.members, email.value)
      case None => Step(s, Fail(Unauthorized))
      case Some(i) =>
        var m := s.members[i];
        match m.discountPercentage
        case None => Step(s, Fail(ServerError))
        case Some(pct) =>
          var amount := PriceValue(price);
          var discount := Policy.DiscountOn(amount, pct);
          var b := Booking(id, m.id, email.value, groundName, None, None, None,
                           amount, discount, amount - discount, Confirmed, now);
          Step(State(Credit(s.members, email.value, m, discount), s.bookings + [b]), Ok(b))
  }
}

=== FILE: flask_invariants.dfy ===
/** The Flask service keeps the store consistent, agrees with the Express
    server on bookings, and gates bookings on a checkout after signup. */
module FlaskInvariants {
  import opened Records
  import opened Store
  import opened Text
  import opened Integrity
  import opened FlaskApp
  import Server

  predicate Sound(s: State) {
    Consistent(s) && ActivePriced(s.members)
  }

  lemma SignupKeepsSound(s: State, f: SignupForm, id: string, now: nat)
    requires Sound(s) && FreshId(s, id)
    ensures Sound(Signup(s, f, id, now).state)
  {
    var r := Signup(s, f, id, now);
    if r.reply.Ok? {
      var m := r.state.members[|s.members|];
      EnrolKeepsConsistent(s, m);
      assert r.state.members == s.members + [m];
    }
  }

  lemma CheckoutKeepsSound(s: State, f: CheckoutForm, id: string, now: nat)
    requires Sound(s) && FreshId(s, id)
    ensures Sound(Checkout(s, f, id, now).state)
  {
    var r := Checkout(s, f, id, now);
    if r.reply.Ok? {
      var e := f.email.value;
      if HasEmail(s.members, e) {
        var i := FindEmail(s.members, e).value;
        OnlyOneWithEmail(s.members, i);
        RewriteKeepsConsistent(s, i, r.state.members[i]);
        assert r.state.members == s.members[i := r.state.members[i]];
      } else {
        var m := r.state.members[|s.members|];
        EnrolKeepsConsistent(s, m);
        assert r.state.members == s.members + [m];
      }
    }
  }

  /** With one row per email, "update every row with the email" rewrites
      only the row the booking was charged to. */
  lemma BookingRewritesOneRow(s: State, email: Option<string>, groundName: Option<string>, price: Price, id: string, now: nat)
    requires UniqueEmails(s.members)
    requires CreateBooking(s, email, groundName, price, id, now).reply.Ok?
    ensures var r := CreateBooking(s, email, groundName, price, id, now);
      var i := FindActive(s.members, email.value).value;
      var m := s.members[i];
      r.state == State(s.members[i := m.(totalBookings := m.totalBookings + 1, totalSavings := m.totalSavings + r.reply.value.discount)],
                       s.bookings + [r.reply.value])
  {
    var r := CreateBooking(s, email, groundName, price, id, now);
    var i := FindActive(s.members, email.value).value;
    CreditRewritesOneRow(s.members, i, r.reply.value.discount);
  }

  lemma CreditRewritesOneRow(ms: seq<Member>, i: nat, discount: real)
    requires UniqueEmails(ms) && i < |ms|
    ensures Credit(ms, ms[i].email, ms[i], discount)
         == ms[i := ms[i].(totalBookings := ms[i].totalBookings + 1, totalSavings := ms[i].totalSavings + discount)]
  {
    OnlyOneWithEmail(ms, i);
  }

  lemma CreateBookingKeepsSound(s: State, email: Option<string>, groundName: Option<string>, price: Price, id: string, now: nat)
    requires Sound(s)
    ensures Sound(CreateBooking(s, email, groundName, price, id, now).state)
  {
    var r := CreateBooking(s, email, groundName, price, id, now);
    if r.reply.Ok? {
      var i := FindActive(s.members, email.value).value;
      BookingRewritesOneRow(s, email, groundName, price, id, now);
      ChargeKeepsConsistent(s, i, r.reply.value);
    }
  }

  /** On a store with one member per email, both servers give the same
      reply and leave the same store behind after a booking at a numeric
      price, once the fields only the Express server stores (location, date
      and time slot) are blanked. */
  lemma BookingAgreesWithServer(s: State, q: Server.BookingRequest, id: string, now: nat)
    requires UniqueEmails(s.members)
    ensures CreateBooking(s, q.email, q.groundName, Number(q.price), id, now)
         == Server.CreateBooking(s, q.(groundLocation := None, bookingDate := None, timeSlot := None), id, now)
  {
    var flask := CreateBooking(s, q.email, q.groundName, Number(q.price), id, now);
    var server := Server.CreateBooking(s, q.(groundLocation := None, bookingDate := None, timeSlot := None), id, now);
    if flask.reply.Ok? {
      BookingRewritesOneRow(s, q.email, q.groundName, Number(q.price), id, now);
      assert server.reply.Ok?;
      assert flask.reply.value == server.reply.value;
      assert flask.state.members == server.state.members;
    }
  }

  /** Verify on the Flask side, like the Express side, agrees with the
      booking gate once emails are unique. */
  lemma VerifyAgreesWithBooking(s: State, email: Option<string>, groundName: Option<string>, price: Price, id: string, now: nat)
    requires UniqueEmails(s.members) && Truthy(email)
    ensures Verify(s, email).Ok?
    ensures Verify(s, email).value.ActiveMember? <==> CreateBooking(s, email, groundName, price, id, now).reply != Fail(Unauthorized)
  {
    FirstIsTheActiveOne(s.members, email.value);
  }

  /** What a successful signup appends, in the shape the lemmas below use. */
  lemma SignupAppends(s: State, f: SignupForm, id: string, now: nat) returns (m: Member)
    requires Signup(s, f, id, now).reply.Ok?
    ensures Signup(s, f, id, now).state == State(s.members + [m], s.bookings)
    ensures m.id == id && m.email == Normalize(f.email.value) && m.status == Inactive
    ensures m.password == f.password && f.password.Some?
    ensures !HasEmail(s.members, m.email)
  {
    var s1 := Signup(s, f, id, now).state;
    m := s1.members[|s.members|];
    assert s1.members == s1.members[..|s.members|] + [m];
  }

  /** A member created by signup is inactive: no booking under its email is
      accepted until a checkout activates it. */
  lemma SignupCannotBook(s: State, f: SignupForm, id: string, now: nat,
                         groundName: Option<string>, price: Price, bid: string, t: nat)
    requires Signup(s, f, id, now).reply.Ok?
    ensures var s1 := Signup(s, f, id, now).state;
      CreateBooking(s1, Some(Normalize(f.email.value)), groundName, price, bid, t) == Step(s1, Fail(Unauthorized))
  {
    var m := SignupAppends(s, f, id, now);
    InactiveNewcomer(s.members, m);
    RefusedWithoutActive(State(s.members + [m], s.bookings), m.email, groundName, price, bid, t);
  }

  /** An inactive member appended under an unused email leaves that email
      without an active member. */
  lemma InactiveNewcomer(ms: seq<Member>, m: Member)
    requires !HasEmail(ms, m.email) && m.status == Inactive
    ensures !HasActive(ms + [m], m.email)
  {
    var ms' := ms + [m];
    forall j | 0 <= j < |ms'| ensures !ActiveWith(ms'[j], m.email) {
      if j < |ms| {
        assert ms'[j] == ms[j];
      }
    }
  }

  /** With no active member under the email, a booking is refused and
      writes nothing. */
  lemma RefusedWithoutActive(s: State, e: string, groundName: Option<string>, price: Price, id: string, now: nat)
    requires !HasActive(s.members, e)
    ensures CreateBooking(s, Some(e), groundName, price, id, now) == Step(s, Fail(Unauthorized))
  {
  }

  /** ...and a checkout under the stored email then lets the booking through,
      at the 20 per cent member discount. */
  lemma CheckoutUnlocksBooking(s: State, f: SignupForm, id: string, now: nat, c: CheckoutForm, cid: string, t: nat,
                               groundName: Option<string>, amount: real, bid: string, t2: nat)
    requires Signup(s, f, id, now).reply.Ok?
    requires Present(c) && c.email == Some(Normalize(f.email.value))
    ensures var s2 := Checkout(Signup(s, f, id, now).state, c, cid, t).state;
      var r := CreateBooking(s2, c.email, groundName, Number(amount), bid, t2);
      r.reply.Ok? && r.reply.value.discount == amount * 20.0 / 100.0
  {
    var m := SignupAppends(s, f, id, now);
    var s1 := State(s.members + [m], s.bookings);
    assert s1.members[|s.members|].email == m.email;
    CheckoutActivates(s1, c, cid, t);
    BookingAtMemberRate(Checkout(s1, c, cid, t).state, m.email, groundName, amount, bid, t2);
  }

  /** A checkout for a stored email leaves every row with it active at the
      member rate. */
  lemma CheckoutActivates(s: State, c: CheckoutForm, id: string, now: nat)
    requires Present(c) && HasEmail(s.members, c.email.value)
    ensures var ms := Checkout(s, c, id, now).state.members;
      && HasActive(ms, c.email.value)
      && forall j :: 0 <= j < |ms| && ms[j].email == c.email.value ==> ms[j].discountPercentage == Some(20)
  {
    var ms := Checkout(s, c, id, now).state.members;
    var k := FindEmail(s.members, c.email.value).value;
    assert ActiveWith(ms[k], c.email.value);
  }

  /** A booking for an email whose active rows all carry 20 per cent goes
      through at that rate. */
  lemma BookingAtMemberRate(s: State, e: string, groundName: Option<string>, amount: real, id: string, now: nat)
    requires HasActive(s.members, e)
    requires forall j :: 0 <= j < |s.members| && s.members[j].email == e ==> s.members[j].discountPercentage == Some(20)
    ensures var r := CreateBooking(s, Some(e), groundName, Number(amount), id, now);
      r.reply.Ok? && r.reply.value.discount == amount * 20.0 / 100.0
  {
  }

  /** A member who signed up can log in with the email as typed at signup,
      and gets back the stored record. */
  lemma SignupThenLogin(s: State, f: SignupForm, id: string, now: nat)
    requires Signup(s, f, id, now).reply.Ok? && Truthy(f.password)
    requires Normalize(f.email.value) != ""
    ensures var r := Login(Signup(s, f, id, now).state, f.email, f.password);
      r.Ok? && r.value.id == id && r.value.email == Normalize(f.email.value)
  {
    var m := SignupAppends(s, f, id, now);
    var ms := s.members + [m];
    var e := Normalize(f.email.value);
    assert Credentials(ms[|s.members|], e, f.password.value);
    forall j | 0 <= j < |s.members| ensures !Credentials(ms[j], e, f.password.value) {
      assert ms[j] == s.members[j];
    }
    assert FindCredentials(ms, e, f.password.value) == Some(|s.members|);
  }

  /** Login only sees the normalised email: any casing and padding of the
      same address gets the same answer. */
  lemma LoginIgnoresCaseAndPadding(s: State, typed: string, other: string, password: Option<string>)
    requires Normalize(typed) == Normalize(other)
    ensures Login(s, Some(typed), password) == Login(s, Some(other), password)
  {
  }

  /** The checkout keeps the email as typed while signup normalises it: a
      checkout under a differently cased email adds a second row instead of
      activating the signed-up one. */
  lemma CaseMismatchAddsRow(s: State, f: SignupForm, id: string, now: nat, c: CheckoutForm, cid: string, t: nat)
    requires Signup(s, f, id, now).reply.Ok?
    requires Present(c) && c.email.value != Normalize(f.email.value)
    requires !HasEmail(s.members, c.email.value)
    ensures var s1 := Signup(s, f, id, now).state;
      var s2 := Checkout(s1, c, cid, t).state;
      && |s2.members| == |s1.members| + 1
      && s2.members[|s.members|].status == Inactive
      && s2.members[|s.members| + 1].email == c.email.value
  {
    var m := SignupAppends(s, f, id, now);
    StillUnused(s.members, m, c.email.value);
  }

  lemma StillUnused(ms: seq<Member>, m: Member, e: string)
    requires !HasEmail(ms, e) && m.email != e
    ensures !HasEmail(ms + [m], e)
  {
    var ms' := ms + [m];
    forall j | 0 <= j < |ms'| ensures ms'[j].email != e {
      if j < |ms| { assert ms'[j] == ms[j]; }
    }
  }
}

=== FILE: integrity.dfy ===
/** The invariants the accounting flow keeps: one member per email, one
    member per id, and every member's counters equal to the tally of the
    bookings charged to that member. */
module Integrity {
  import opened Records
  import opened Store

  predicate UniqueEmails(ms: seq<Member>) {
    forall i, j :: 0 <= i < j < |ms| ==> ms[i].email != ms[j].email
  }

  predicate UniqueIds(ms: seq<Member>) {
    forall i, j :: 0 <= i < j < |ms| ==> ms[i].id != ms[j].id
  }

  function Ids(ms: seq<Member>): set<string> {
    set m | m in ms :: m.id
  }

  /** `totalBookings` counts, and `totalSavings` sums the discounts of, the
      bookings whose `memberId` is this member's id. */
  predicate Tallied(m: Member, bs: seq<Booking>) {
    && m.totalBookings == |Select(bs, ByMember(m.id))|
    && m.totalSavings == DiscountTotal(Select(bs, ByMember(m.id)))
  }

  predicate Balanced(ms: seq<Member>, bs: seq<Booking>) {
    forall m :: m in ms ==> Tallied(m, bs)
  }

  predicate Consistent(s: State) {
    && UniqueEmails(s.members)
    && UniqueIds(s.members)
    && Balanced(s.members, s.bookings)
  }

  /** An id no member holds and no booking (not even an orphan) refers to. */
  predicate FreshId(s: State, id: string) {
    && (forall j :: 0 <= j < |s.members| ==> s.members[j].id != id)
    && (forall k :: 0 <= k < |s.bookings| ==> s.bookings[k].memberId != id)
  }

  /** Every member carries a discount: true of every store the Express
      server writes. */
  predicate AllPriced(ms: seq<Member>) {
    forall j :: 0 <= j < |ms| ==> ms[j].discountPercentage.Some?
  }

  /** Every active member carries a discount: true of every store the Flask
      service writes (its signup stores members without one, inactive). */
  predicate ActivePriced(ms: seq<Member>) {
    forall j :: 0 <= j < |ms| ==> ms[j].status == Active ==> ms[j].discountPercentage.Some?
  }

  /** Nothing refers to a member that is no longer stored. */
  predicate NoOrphans(s: State) {
    forall k :: 0 <= k < |s.bookings| ==> s.bookings[k].memberId in Ids(s.members)
  }

  /** With one member per email, the member at `i` is the only one with its email. */
  lemma OnlyOneWithEmail(ms: seq<Member>, i: nat)
    requires UniqueEmails(ms) && i < |ms|
    ensures forall j :: 0 <= j < |ms| && ms[j].email == ms[i].email ==> j == i
  {
  }

  /** With unique emails, "the first member with this email is active" (the
      verify handlers) and "some active member has this email" (the booking
      handlers) pick out the same member. */
  lemma FirstIsTheActiveOne(ms: seq<Member>, e: string)
    requires UniqueEmails(ms)
    ensures (FindEmail(ms, e).Some? && ms[FindEmail(ms, e).value].status == Active) <==> HasActive(ms, e)
    ensures HasActive(ms, e) ==> FindActive(ms, e) == FindEmail(ms, e)
  {
    if HasActive(ms, e) {
      var k := FindActive(ms, e).value;
      var i := FindEmail(ms, e).value;
      assert i <= k;
      assert i == k;
    }
  }

  /** Without unique emails the two readings part: a cancelled row ahead of an
      active row with the same email. */
  lemma DuplicatesSplitTheReadings(ms: seq<Member>, e: string)
    requires |ms| == 2 && ms[0].email == e && ms[1].email == e
    requires ms[0].status == Cancelled && ms[1].status == Active
    ensures !UniqueEmails(ms)
    ensures ms[FindEmail(ms, e).value].status != Active && HasActive(ms, e)
  {
    assert ActiveWith(ms[1], e);
  }

  /** Appending members keeps every earlier member's tally; a member whose id
      is fresh starts from an empty tally. */
  lemma TallyOfAppended(bs: seq<Booking>, b: Booking, m: Member)
    ensures Select(bs + [b], ByMember(m.id)) == Select(bs, ByMember(m.id)) + (if b.memberId == m.id then [b] else [])
    ensures DiscountTotal(Select(bs + [b], ByMember(m.id)))
         == DiscountTotal(Select(bs, ByMember(m.id))) + (if b.memberId == m.id then b.discount else 0.0)
  {
    SelectAppend(bs, [b], ByMember(m.id));
    assert Select([b], ByMember(m.id)) == (if b.memberId == m.id then [b] else []) + Select([], ByMember(m.id));
    DiscountTotalAppend(Select(bs, ByMember(m.id)), if b.memberId == m.id then [b] else []);
  }

  /** No booking refers to a fresh id, so a member created with it is tallied
      exactly when its counters are zero. */
  lemma {:induction false} FreshIdHasNoBookings(bs: seq<Booking>, id: string)
    requires forall k :: 0 <= k < |bs| ==> bs[k].memberId != id
    ensures Select(bs, ByMember(id)) == []
  {
    if bs != [] {
      FreshIdHasNoBookings(bs[1..], id);
    }
  }

  /** Charging one booking to the member at `i` and bumping that member's
      counters by one booking and its discount keeps the store consistent. */
  lemma ChargeKeepsConsistent(s: State, i: nat, b: Booking)
    requires Consistent(s) && i < |s.members|
    requires b.memberId == s.members[i].id
    ensures var m := s.members[i];
      Consistent(State(s.members[i := m.(totalBookings := m.totalBookings + 1, totalSavings := m.totalSavings + b.discount)], s.bookings + [b]))
  {
    var m := s.members[i];
    var ms' := s.members[i := m.(totalBookings := m.totalBookings + 1, totalSavings := m.totalSavings + b.discount)];
    var bs' := s.bookings + [b];
    forall x | x in ms' ensures Tallied(x, bs') {
      var j :| 0 <= j < |ms'| && ms'[j] == x;
      TallyOfAppended(s.bookings, b, x);
      if j != i {
        assert s.members[j] == x;
        assert Tallied(x, s.bookings);
      } else {
        assert Tallied(m, s.bookings);
      }
    }
  }

  /** Appending a member with a fresh id, an unused email and zero counters
      keeps the store consistent. */
  lemma EnrolKeepsConsistent(s: State, m: Member)
    requires Consistent(s) && FreshId(s, m.id) && !HasEmail(s.members, m.email)
    requires m.totalBookings == 0 && m.totalSavings == 0.0
    ensures Consistent(State(s.members + [m], s.bookings))
  {
    var ms' := s.members + [m];
    FreshIdHasNoBookings(s.bookings, m.id);
    forall x | x in ms' ensures Tallied(x, s.bookings) {
      if x != m {
        assert x in s.members;
      }
    }
  }

  /** Rewriting the member at `i` without touching its id, email or counters
      keeps the store consistent. */
  lemma RewriteKeepsConsistent(s: State, i: nat, m: Member)
    requires Consistent(s) && i < |s.members|
    requires m.id == s.members[i].id && m.email == s.members[i].email
    requires m.totalBookings == s.members[i].totalBookings && m.totalSavings == s.members[i].totalSavings
    ensures Consistent(State(s.members[i := m], s.bookings))
  {
    var ms' := s.members[i := m];
    forall x | x in ms' ensures Tallied(x, s.bookings) {
      var j :| 0 <= j < |ms'| && ms'[j] == x;
      if j == i {
        assert Tallied(s.members[i], s.bookings);
      } else {
        assert x == s.members[j];
      }
    }
  }

  lemma TailUnique(ms: seq<Member>)
    requires ms != [] && UniqueEmails(ms) && UniqueIds(ms)
    ensures UniqueEmails(ms[1..]) && UniqueIds(ms[1..])
  {
    var rest := ms[1..];
    forall i, j | 0 <= i < j < |rest| ensures rest[i].email != rest[j].email && rest[i].id != rest[j].id {
      assert rest[i] == ms[i + 1] && rest[j] == ms[j + 1];
    }
  }

  lemma ConsUnique(m: Member, w: seq<Member>)
    requires UniqueEmails(w) && UniqueIds(w)
    requires forall x :: x in w ==> x.email != m.email && x.id != m.id
    ensures UniqueEmails([m] + w) && UniqueIds([m] + w)
  {
    var r := [m] + w;
    forall i, j | 0 <= i < j < |r| ensures r[i].email != r[j].email && r[i].id != r[j].id {
      assert r[j] == w[j - 1];
      if i == 0 {
        assert r[j] in w;
      } else {
        assert r[i] == w[i - 1];
      }
    }
  }

  /** Dropping members (by email) keeps emails and ids unique. */
  lemma {:induction false} WithoutKeepsUnique(ms: seq<Member>, e: string)
    requires UniqueEmails(ms) && UniqueIds(ms)
    ensures UniqueEmails(Without(ms, e)) && UniqueIds(Without(ms, e))
  {
    if ms != [] {
      var rest := ms[1..];
      TailUnique(ms);
      WithoutKeepsUnique(rest, e);
      var w := Without(rest, e);
      assert Without(ms, e) == (if ms[0].email != e then [ms[0]] else []) + w;
      if ms[0].email != e {
        forall x | x in w ensures x.email != ms[0].email && x.id != ms[0].id {
          var k :| 0 <= k < |rest| && rest[k] == x;
          assert ms[k + 1] == x;
        }
        ConsUnique(ms[0], w);
      } else {
        assert Without(ms, e) == w;
      }
    }
  }

  /** Dropping members (by email) keeps the store consistent; the bookings of
      the dropped members stay behind. */
  lemma WithoutKeepsConsistent(s: State, e: string)
    requires Consistent(s)
    ensures Consistent(State(Without(s.members, e), s.bookings))
  {
    WithoutKeepsUnique(s.members, e);
  }
}

=== FILE: policy.dfy ===
/** The discount policy: the percentage a paid plan earns and how far ahead
    its renewal date lies. */
module Policy {
  import opened Records

  /** Every paid plan earns a flat 20 per cent in both server variants. */
  const MemberDiscount: int := 20

  const YearlyPlan: string := "yearly"

  const MonthlyPlan: string := "monthly"

  /** The discount a booking at `price` earns at `pct` per cent. */
  function DiscountOn(price: real, pct: int): real {
    price * (pct as real) / 100.0
  }

  /** For a percentage between 0 and 100 the discount on a non-negative
      price lies between nothing and the whole price, grows with the
      percentage, and at the member rate is a fifth of the price. */
  lemma DiscountBounds(price: real, pct: int, more: int)
    requires price >= 0.0 && 0 <= pct <= more <= 100
    ensures 0.0 <= DiscountOn(price, pct) <= DiscountOn(price, more) <= price
    ensures DiscountOn(price, 0) == 0.0 && DiscountOn(price, 100) == price
    ensures DiscountOn(price, MemberDiscount) == price / 5.0
  {
  }

  /** `calculateRenewalDate`: a year ahead for "yearly", a month otherwise. */
  function ServerHorizon(plan: string): (h: Horizon)
    ensures h.Months?
    ensures plan == YearlyPlan <==> h.months == 12
    ensures plan != YearlyPlan <==> h.months == 1
  {
    if plan == YearlyPlan then Months(12) else Months(1)
  }

  /** The Flask checkout: 365 days for "yearly", 30 days otherwise. */
  function FlaskHorizon(plan: string): (h: Horizon)
    ensures h.Days?
    ensures plan == YearlyPlan <==> h.days == 365
    ensures plan != YearlyPlan <==> h.days == 30
  {
    if plan == YearlyPlan then Days(365) else Days(30)
  }
}

=== FILE: records.dfy ===
/** Record shapes shared by the file-backed Express server, the admin CLI and the
    table-backed Flask service: members, bookings, the store holding both, the
    request forms, and the replies an operation gives. */
module Records {

  datatype Option<+T> = None | Some(value: T) {
    /** The value, or `default` when the field is absent. */
    function GetOr(default: T): T {
      match this
      case Some(v) => v
      case None => default
    }
  }

  /** A request field as JavaScript `if (x)` and Python `if not x` read it:
      present and not the empty string. */
  predicate Truthy(field: Option<string>) {
    field.Some? && field.value != ""
  }

  datatype Status = Active | Cancelled | Inactive

  /** How far the renewal date lies ahead of the purchase: calendar months
      (Express server) or a fixed number of days (Flask service). */
  datatype Horizon = Months(months: nat) | Days(days: nat)

  /** A renewal date: the clock reading at purchase plus a horizon. */
  datatype Renewal = Renewal(from: nat, horizon: Horizon)

  datatype Address = Address(
    street: Option<string>,
    city: Option<string>,
    region: Option<string>,
    zipcode: Option<string>,
    country: Option<string>)

  const NoAddress := Address(None, None, None, None, None)

  /** One stored member. Fields a variant never writes are `None`: the Flask
      signup stores no plan and no discount, the Express server no password. */
  datatype Member = Member(
    id: string,
    fullName: string,
    email: string,
    phone: string,
    address: Address,
    password: Option<string>,
    plan: Option<string>,
    status: Status,
    discountPercentage: Option<int>,
    purchasedAt: Option<nat>,
    renewal: Option<Renewal>,
    totalBookings: nat,
    totalSavings: real,
    createdAt: nat,
    updatedAt: Option<nat>,
    cancelledAt: Option<nat>)

  datatype BookingStatus = Confirmed

  datatype Booking = Booking(
    id: string,
    memberId: string,
    email: string,
    groundName: Option<string>,
    groundLocation: Option<string>,
    bookingDate: Option<string>,
    timeSlot: Option<string>,
    originalPrice: real,
    discount: real,
    finalPrice: real,
    status: BookingStatus,
    createdAt: nat)

  /** The two collections, in storage order. */
  datatype State = State(members: seq<Member>, bookings: seq<Booking>)

  const Empty := State([], [])

  /** The checkout request body; `cardName` is never stored and is omitted. */
  datatype CheckoutForm = CheckoutForm(
    plan: Option<string>,
    fullName: Option<string>,
    email: Option<string>,
    phone: Option<string>,
    address: Address)

  /** Failures an endpoint reports: 400, 404, 401, 400 and 500 respectively. */
  datatype Error = ValidationError | NotFound | Unauthorized | AlreadyExists | ServerError

  datatype Reply<+T> = Ok(value: T) | Fail(error: Error)

  /** The state an operation leaves behind and what it answers. */
  datatype Step<+T> = Step(state: State, reply: Reply<T>)
}

=== FILE: reporting.dfy ===
/** The admin statistics (GET /api/stats in server.js, `stats` in
    admin-cli.js): counts and sums over both collections, read-only. */
module Reporting {
  import opened Records
  import opened Store
  import opened Integrity
  import opened Policy

  datatype Summary = Summary(
    totalMembers: nat,
    activeMembers: nat,
    monthlyMembers: nat,
    yearlyMembers: nat,
    totalBookings: nat,
    totalRevenue: real,
    averageBookingsPerMember: real)

  /** `Math.max(members.length, 1)`: the divisor that makes an empty store
      average to zero instead of dividing by zero. */
  function Divisor(ms: seq<Member>): (d: nat)
    ensures d >= 1 && d >= |ms|
  {
    if |ms| == 0 then 1 else |ms|
  }

  /** `bookings / max(members, 1)`. */
  function Average(n: nat, d: nat): (a: real)
    requires d >= 1
    ensures a * (d as real) == n as real && 0.0 <= a
    ensures n == 0 ==> a == 0.0
  {
    (n as real) / (d as real)
  }

  /** The summary the statistics endpoint and command report. */
  function Stats(s: State): (r: Summary)
    ensures r.totalMembers == |s.members| && r.totalBookings == |s.bookings|
    ensures r.activeMembers == Count(s.members, IsActive) <= r.totalMembers
    ensures r.monthlyMembers == Count(s.members, OnPlan(MonthlyPlan))
    ensures r.yearlyMembers == Count(s.members, OnPlan(YearlyPlan))
    ensures r.monthlyMembers + r.yearlyMembers <= r.totalMembers
    ensures r.totalRevenue == SavingsTotal(s.members)
    ensures r.averageBookingsPerMember == Average(|s.bookings|, Divisor(s.members))
    ensures s == Empty ==> r == Summary(0, 0, 0, 0, 0, 0.0, 0.0)
  {
    PlanCountsBounded(s.members, MonthlyPlan, YearlyPlan);
    Summary(|s.members|, Count(s.members, IsActive), Count(s.members, OnPlan(MonthlyPlan)),
            Count(s.members, OnPlan(YearlyPlan)), |s.bookings|, SavingsTotal(s.members),
            Average(|s.bookings|, Divisor(s.members)))
  }

  lemma {:induction false} NoIdsSelectNothing(bs: seq<Booking>)
    ensures Select(bs, ByMembers({})) == []
  {
    if bs != [] {
      NoIdsSelectNothing(bs[1..]);
    }
  }

  lemma {:induction false} SelectEverything(bs: seq<Booking>, k: BookingKey)
    requires forall i :: 0 <= i < |bs| ==> Matches(bs[i], k)
    ensures Select(bs, k) == bs
  {
    if bs != [] {
      SelectEverything(bs[1..], k);
    }
  }

  /** On a balanced store the members' counters add up to the bookings that
      belong to current members: revenue is the sum of their discounts and
      the booked total is their number. */
  lemma {:induction false} CountersMatchBookings(ms: seq<Member>, bs: seq<Booking>)
    requires UniqueIds(ms) && Balanced(ms, bs)
    ensures SavingsTotal(ms) == DiscountTotal(Select(bs, ByMembers(Ids(ms))))
    ensures BookedTotal(ms) == |Select(bs, ByMembers(Ids(ms)))|
  {
    if ms == [] {
      assert Ids(ms) == {};
      NoIdsSelectNothing(bs);
    } else {
      var m := ms[0];
      var rest := ms[1..];
      assert UniqueIds(rest) by {
        forall i, j | 0 <= i < j < |rest| ensures rest[i].id != rest[j].id {
          assert rest[i] == ms[i + 1] && rest[j] == ms[j + 1];
        }
      }
      assert Balanced(rest, bs) by {
        forall x | x in rest ensures Tallied(x, bs) { assert x in ms; }
      }
      CountersMatchBookings(rest, bs);
      assert Ids(ms) == {m.id} + Ids(rest) by {
        assert ms == [m] + rest;
      }
      assert m.id !in Ids(rest);
      SelectSplit(bs, m.id, Ids(rest));
      assert Tallied(m, bs);
    }
  }

  /** With no orphaned bookings, the reported revenue is the sum of all
      booking discounts and the booking count is the sum of the members'
      counters. */
  lemma StatsWithoutOrphans(s: State)
    requires Consistent(s) && NoOrphans(s)
    ensures Stats(s).totalRevenue == DiscountTotal(s.bookings)
    ensures Stats(s).totalBookings == BookedTotal(s.members)
  {
    CountersMatchBookings(s.members, s.bookings);
    SelectEverything(s.bookings, ByMembers(Ids(s.members)));
  }
}

=== FILE: server.dfy ===
/** The file-backed Express server's membership and booking handlers
    (server.js), each a transition over the loaded store. */
module Server {
  import opened Records
  import opened Store
  import opened Integrity
  import Policy

  /** What a successful checkout answers. */
  datatype Receipt = Receipt(email: string, plan: string)

  /** The verify reply: `isActiveMember` with the plan and discount, or not. */
  datatype Verdict = ActiveMember(plan: Option<string>, discountPercentage: Option<int>) | NotActive

  datatype BookingRequest = BookingRequest(
    email: Option<string>,
    groundName: Option<string>,
    groundLocation: Option<string>,
    bookingDate: Option<string>,
    timeSlot: Option<string>,
    price: real)

  /** Checkout's validation: the four fields present and non-empty. */
  predicate Complete(f: CheckoutForm) {
    Truthy(f.fullName) && Truthy(f.email) && Truthy(f.phone) && Truthy(f.plan)
  }

  /** What a first checkout stores for the form's email. */
  predicate Enrolled(m: Member, f: CheckoutForm, id: string, now: nat)
    requires Complete(f)
  {
    && m.id == id && m.email == f.email.value
    && m.fullName == f.fullName.value && m.phone == f.phone.value && m.address == f.address
    && m.plan == Some(f.plan.value) && m.status == Active
    && m.discountPercentage == Some(20)
    && m.totalBookings == 0 && m.totalSavings == 0.0
    && m.purchasedAt == Some(now) && m.createdAt == now
    && m.renewal == Some(Renewal(now, if f.plan.value == "yearly" then Months(12) else Months(1)))
    && m.password.None? && m.updatedAt.None? && m.cancelledAt.None?
  }

  /** What a repeat checkout does to the member it finds: the plan, status,
      dates, phone and name are replaced; identity, discount and counters kept. */
  predicate Reactivated(before: Member, after: Member, f: CheckoutForm, now: nat)
    requires Complete(f)
  {
    && after.plan == Some(f.plan.value) && after.status == Active
    && after.purchasedAt == Some(now)
    && after.renewal == Some(Renewal(now, if f.plan.value == "yearly" then Months(12) else Months(1)))
    && after.phone == f.phone.value && after.fullName == f.fullName.value
    && after == before.(plan := after.plan, status := Active, purchasedAt := after.purchasedAt,
                        renewal := after.renewal, phone := after.phone, fullName := after.fullName)
  }

  function Renew(m: Member, f: CheckoutForm, now: nat): Member
    requires Complete(f)
  {
    m.(plan := Some(f.plan.value), status := Active, purchasedAt := Some(now),
       renewal := Some(Renewal(now, Policy.ServerHorizon(f.plan.value))),
       phone := f.phone.value, fullName := f.fullName.value)
  }

  function NewMember(f: CheckoutForm, id: string, now: nat): Member
    requires Complete(f)
  {
    Member(id, f.fullName.value, f.email.value, f.phone.value, f.address, None,
           Some(f.plan.value), Active, Some(Policy.MemberDiscount), Some(now),
           Some(Renewal(now, Policy.ServerHorizon(f.plan.value))), 0, 0.0, now, None, None)
  }

  /** POST /api/membership/checkout: upsert by email. */
  function Checkout(s: State, f: CheckoutForm, id: string, now: nat): (r: Step<Receipt>)
    ensures r.reply.Fail? <==> !Complete(f)
    ensures r.reply.Fail? ==> r == Step(s, Fail(ValidationError))
    ensures r.state.bookings == s.bookings
    ensures r.reply.Ok? ==> r.reply.value == Receipt(f.email.value, f.plan.value)
    ensures r.reply.Ok? && !HasEmail(s.members, f.email.value) ==>
      && |r.state.members| == |s.members| + 1
      && r.state.members[..|s.members|] == s.members
      && Enrolled(r.state.members[|s.members|], f, id, now)
    ensures r.reply.Ok? && HasEmail(s.members, f.email.value) ==>
      var i := FindEmail(s.members, f.email.value).value;
      && |r.state.members| == |s.members|
      && (forall j :: 0 <= j < |s.members| && j != i ==> r.state.members[j] == s.members[j])
      && Reactivated(s.members[i], r.state.members[i], f, now)
  {
    if !Complete(f) then Step(s, Fail(ValidationError))
    else
      var e := f.email.value;
      match FindEmail(s.members, e)
      case Some(i) => Step(s.(members := s.members[i := Renew(s.members[i], f, now)]), Ok(Receipt(e, f.plan.value)))
      case None =>
        var ms' := s.members + [NewMember(f, id, now)];
        assert ms'[..|s.members|] == s.members;
        Step(s.(members := ms'), Ok(Receipt(e, f.plan.value)))
  }

  /** GET /api/membership/:email: the first member with that email. */
  function Get(s: State, e: string): (r: Reply<Member>)
    ensures r.Fail? <==> !HasEmail(s.members, e)
    ensures r.Fail? ==> r.error == NotFound
    ensures r.Ok? ==> r.value.email == e && r.value in s.members
    ensures r.Ok? ==> r.value == s.members[FindEmail(s.members, e).value]
  {
    match FindEmail(s.members, e)
    case None => Fail(NotFound)
    case Some(i) => Ok(s.members[i])
  }

  /** PUT /api/membership/:email: replace phone and name when given non-empty. */
  function Update(s: State, e: string, phone: Option<string>, fullName: Option<string>, now: nat): (r: Step<()>)
    ensures r.reply.Fail? <==> !HasEmail(s.members, e)
    ensures r.reply.Fail? ==> r == Step(s, Fail(NotFound))
    ensures r.state.bookings == s.bookings && |r.state.members| == |s.members|
    ensures r.reply.Ok? ==>
      var i := FindEmail(s.members, e).value;
      var m := s.members[i];
      var m' := r.state.members[i];
      && (forall j :: 0 <= j < |s.members| && j != i ==> r.state.members[j] == s.members[j])
      && m'.phone == (if Truthy(phone) then phone.value else m.phone)
      && m'.fullName == (if Truthy(fullName) then fullName.value else m.fullName)
      && m'.updatedAt == Some(now)
      && m' == m.(phone := m'.phone, fullName := m'.fullName, updatedAt := m'.updatedAt)
  {
    match FindEmail(s.members, e)
    case None => Step(s, Fail(NotFound))
    case Some(i) =>
      var m := s.members[i];
      var m' := m.(phone := if Truthy(phone) then phone.value else m.phone,
                   fullName := if Truthy(fullName) then fullName.value else m.fullName,
                   updatedAt := Some(now));
      Step(s.(members := s.members[i := m']), Ok(()))
  }

  function CancelOne(m: Member, e: string, now: nat): Member {
    if m.email == e then m.(status := Cancelled, cancelledAt := Some(now)) else m
  }

  /** DELETE /api/membership/:email: cancel every member with that email;
      succeeds even when there is none. */
  function Cancel(s: State, e: string, now: nat): (r: Step<()>)
    ensures r.reply == Ok(())
    ensures r.state.bookings == s.bookings && |r.state.members| == |s.members|
    ensures forall j :: 0 <= j < |s.members| ==>
      var m := s.members[j];
      var m' := r.state.members[j];
      && (m.email == e ==> m'.status == Cancelled && m'.cancelledAt == Some(now))
      && (m.email != e ==> m' == m)
      && m' == m.(status := m'.status, cancelledAt := m'.cancelledAt)
    ensures !HasEmail(s.members, e) ==> r.state == s
  {
    var ms' := seq(|s.members|, j requires 0 <= j < |s.members| => CancelOne(s.members[j], e, now));
    assert !HasEmail(s.members, e) ==> ms' == s.members;
    Step(s.(members := ms'), Ok(()))
  }

  /** POST /api/membership/verify: is the first member with this email active? */
  function Verify(s: State, e: Option<string>): (r: Reply<Verdict>)
    ensures r.Fail? <==> !Truthy(e)
    ensures r.Fail? ==> r.error == ValidationError
    ensures r.Ok? ==>
      (r.value.ActiveMember? <==> FindEmail(s.members, e.value).Some? && s.members[FindEmail(s.members, e.value).value].status == Active)
    ensures r.Ok? && r.value.ActiveMember? ==>
      var m := s.members[FindEmail(s.members, e.value).value];
      r.value == ActiveMember(m.plan, m.discountPercentage)
    ensures r.Ok? && !HasEmail(s.members, e.value) ==> r.value == NotActive
  {
    if !Truthy(e) then Fail(ValidationError)
    else match FindEmail(s.members, e.value)
      case Some(i) =>
        var m := s.members[i];
        if m.status == Active then Ok(ActiveMember(m.plan, m.discountPercentage)) else Ok(NotActive)
      case None => Ok(NotActive)
  }

  /** POST /api/bookings: charge a discounted booking to the first active
      member with that email, then bump that member's counters. */
  function CreateBooking(s: State, q: BookingRequest, id: string, now: nat): (r: Step<Booking>)
    ensures r.reply == Fail(Unauthorized) <==> !(q.email.Some? && HasActive(s.members, q.email.value))
    ensures r.reply.Fail? ==> r.state == s
    ensures r.reply == Fail(ServerError) <==>
      q.email.Some? && HasActive(s.members, q.email.value) && s.members[FindActive(s.members, q.email.value).value].discountPercentage.None?
    ensures r.reply.Ok? ==>
      var i := FindActive(s.members, q.email.value).value;
      var m := s.members[i];
      var b := r.reply.value;
      && m.discountPercentage.Some?
      && b.originalPrice == q.price
      && b.discount == Policy.DiscountOn(q.price, m.discountPercentage.value)
      && b.finalPrice == q.price - b.discount
      && b.status == Confirmed && b.memberId == m.id && b.email == m.email && b.id == id
      && b.groundName == q.groundName && b.groundLocation == q.groundLocation
      && b.bookingDate == q.bookingDate && b.timeSlot == q.timeSlot && b.createdAt == now
      && r.state.bookings == s.bookings + [b]
      && |r.state.members| == |s.members|
      && (forall j :: 0 <= j < |s.members| && j != i ==> r.state.members[j] == s.members[j])
      && r.state.members[i] == m.(totalBookings := m.totalBookings + 1, totalSavings := m.totalSavings + b.discount)
  {
    if q.email.None? then Step(s, Fail(Unauthorized))
    else match FindActive(s.members, q.email.value)
      case None => Step(s, Fail(Unauthorized))
      case Some(i) =>
        var m := s.members[i];
        match m.discountPercentage
        case None => Step(s, Fail(ServerError))
        case Some(pct) =>
          var discount := Policy.DiscountOn(q.price, pct);
          var b := Booking(id, m.id, q.email.value, q.groundName, q.groundLocation, q.bookingDate,
                           q.timeSlot, q.price, discount, q.price - discount, Confirmed, now);
          var m' := m.(totalBookings := m.totalBookings + 1, totalSavings := m.totalSavings + discount);
          Step(State(s.members[i := m'], s.bookings + [b]), Ok(b))
  }

  /** POST /api/bookings as written: the reply object names `originalPrice`,
      which the handler never declares, so after the booking and the counters
      are written the handler throws and answers with a server error. */
  function CreateBookingAsWritten(s: State, q: BookingRequest, id: string, now: nat): (r: Step<Booking>)
    ensures r.reply.Fail?
    ensures r.reply == Fail(Unauthorized) <==> !(q.email.Some? && HasActive(s.members, q.email.value))
    ensures r.reply != Fail(Unauthorized) ==> r.reply == Fail(ServerError)
    ensures r.state == CreateBooking(s, q, id, now).state
  {
    var r := CreateBooking(s, q, id, now);
    if r.reply.Ok? then Step(r.state, Fail(ServerError)) else r
  }

  /** Every accepted booking is reported as a failure although it was
      stored: a client that retries books the ground twice. */
  lemma BookingFailsAfterWriting(s: State, q: BookingRequest, id: string, now: nat)
    requires CreateBooking(s, q, id, now).reply.Ok?
    ensures var r := CreateBookingAsWritten(s, q, id, now);
      && r.reply == Fail(ServerError)
      && |r.state.bookings| == |s.bookings| + 1
      && r.state.bookings[|s.bookings|].email == q.email.value
      && |r.state.members| == |s.members|
      && var i := FindActive(s.members, q.email.value).value;
      && var b := r.state.bookings[|s.bookings|];
      && r.state.members[i].totalBookings == s.members[i].totalBookings + 1
      && r.state.members[i].totalSavings == s.members[i].totalSavings + b.discount
  {
  }

  /** GET /api/bookings/:email: the bookings with that email, in storage
      order, and their count. */
  method ListBookings(s: State, e: string) returns (found: seq<Booking>, count: nat)
    ensures found == Select(s.bookings, ByEmail(e))
    ensures count == |found|
  {
    found := [];
    var k := 0;
    while k < |s.bookings|
      invariant 0 <= k <= |s.bookings|
      invariant found == Select(s.bookings[..k], ByEmail(e))
    {
      var b := s.bookings[k];
      SelectAppend(s.bookings[..k], [b], ByEmail(e));
      assert Select([b], ByEmail(e)) == (if b.email == e then [b] else []) + Select([], ByEmail(e));
      assert s.bookings[..k + 1] == s.bookings[..k] + [b];
      if b.email == e {
        found := found + [b];
      }
      k := k + 1;
    }
    assert s.bookings[..k] == s.bookings;
    count := |found|;
  }

  // ---------------------------------------------------------------------------
  // Laws relating the handlers.

  /** A booking never charges more than the price, nor less than nothing,
      at a discount between 0 and 100 per cent; price and discount always add up. */
  lemma BookingPriceBounds(s: State, q: BookingRequest, id: string, now: nat)
    requires CreateBooking(s, q, id, now).reply.Ok?
    ensures var b := CreateBooking(s, q, id, now).reply.value;
      && b.finalPrice + b.discount == b.originalPrice
      && (var pct := s.members[FindActive(s.members, q.email.value).value].discountPercentage.value;
          0 <= pct <= 100 && 0.0 <= q.price ==> 0.0 <= b.discount <= b.originalPrice && 0.0 <= b.finalPrice <= b.originalPrice)
  {
    var pct := s.members[FindActive(s.members, q.email.value).value].discountPercentage.value;
    if 0 <= pct <= 100 && 0.0 <= q.price {
      var p := pct as real;
      assert 0.0 <= p <= 100.0;
      assert 0.0 <= q.price * p by { assert 0.0 <= q.price && 0.0 <= p; }
      assert q.price * p <= q.price * 100.0 by {
        assert q.price * 100.0 - q.price * p == q.price * (100.0 - p);
        assert 0.0 <= q.price * (100.0 - p);
      }
    }
  }

  /** With one member per email, verify answers "active" exactly when a
      booking for that email would be accepted. */
  lemma VerifyAgreesWithBooking(s: State, q: BookingRequest, id: string, now: nat)
    requires UniqueEmails(s.members) && Truthy(q.email)
    ensures Verify(s, q.email).Ok?
    ensures Verify(s, q.email).value.ActiveMember? <==> CreateBooking(s, q, id, now).reply != Fail(Unauthorized)
  {
    FirstIsTheActiveOne(s.members, q.email.value);
  }

  /** A checkout is visible to a subsequent get: the member is active on the
      submitted plan. */
  lemma CheckoutThenGet(s: State, f: CheckoutForm, id: string, now: nat)
    requires Complete(f)
    ensures var g := Get(Checkout(s, f, id, now).state, f.email.value);
      g.Ok? && g.value.status == Active && g.value.plan == Some(f.plan.value)
  {
    var s' := Checkout(s, f, id, now).state;
    var e := f.email.value;
    if HasEmail(s.members, e) {
      var i := FindEmail(s.members, e).value;
      assert s'.members[i].email == e;
      assert FindEmail(s'.members, e) == Some(i);
    } else {
      assert s'.members[|s.members|].email == e;
      assert FindEmail(s'.members, e) == Some(|s.members|);
    }
  }

  /** A second checkout with the same email keeps exactly one member for it,
      now on the second plan. */
  lemma CheckoutTwiceKeepsOneMember(s: State, f1: CheckoutForm, f2: CheckoutForm, id1: string, id2: string, t1: nat, t2: nat)
    requires Complete(f1) && Complete(f2) && f1.email == f2.email
    requires !HasEmail(s.members, f1.email.value)
    ensures var s2 := Checkout(Checkout(s, f1, id1, t1).state, f2, id2, t2).state;
      && |s2.members| == |s.members| + 1
      && s2.members[|s.members|].plan == Some(f2.plan.value)
      && s2.members[|s.members|].id == id1
      && s2.members[|s.members|].discountPercentage == Some(20)
  {
    var s1 := Checkout(s, f1, id1, t1).state;
    var e := f1.email.value;
    assert s1.members[|s.members|].email == e;
    assert FindEmail(s1.members, e) == Some(|s.members|);
  }

  /** After cancel, verify reports the email inactive and a booking for it is
      refused: absent and cancelled look the same to the caller. */
  lemma CancelThenRefused(s: State, q: BookingRequest, id: string, now: nat, t: nat)
    requires Truthy(q.email)
    ensures var s' := Cancel(s, q.email.value, t).state;
      && Verify(s', q.email) == Ok(NotActive)
      && CreateBooking(s', q, id, now) == Step(s', Fail(Unauthorized))
  {
    var s' := Cancel(s, q.email.value, t).state;
    assert !HasActive(s'.members, q.email.value);
  }

  /** Cancelling twice at the same moment is cancelling once. */
  lemma CancelIdempotent(s: State, e: string, now: nat)
    ensures Cancel(Cancel(s, e, now).state, e, now) == Cancel(s, e, now)
  {
    var s1 := Cancel(s, e, now).state;
    var s2 := Cancel(s1, e, now).state;
    assert s2.members == s1.members;
  }

  /** Updating with the same fields twice is updating once. */
  lemma UpdateIdempotent(s: State, e: string, phone: Option<string>, fullName: Option<string>, now: nat)
    ensures var r := Update(s, e, phone, fullName, now);
      Update(r.state, e, phone, fullName, now).state == r.state
  {
    var r := Update(s, e, phone, fullName, now);
    if HasEmail(s.members, e) {
      var i := FindEmail(s.members, e).value;
      assert FindEmail(r.state.members, e) == Some(i);
    }
  }

  /** The test-script scenario: a yearly checkout, then a booking at 1500,
      leaves a final price of 1200 and the member credited with one booking
      and 300 saved. */
  lemma YearlyThenBooking(f: CheckoutForm, q: BookingRequest)
    requires Complete(f) && f.plan == Some("yearly") && q.email == f.email && q.price == 1500.0
    ensures var s1 := Checkout(Empty, f, "MEM-1", 1).state;
      var r := CreateBooking(s1, q, "BOOK-2", 2);
      && r.reply.Ok?
      && r.reply.value.discount == 300.0 && r.reply.value.finalPrice == 1200.0
      && r.state.members[0].totalBookings == 1 && r.state.members[0].totalSavings == 300.0
      && r.state.members[0].renewal == Some(Renewal(1, Months(12)))
  {
    var s1 := Checkout(Empty, f, "MEM-1", 1).state;
    assert ActiveWith(s1.members[0], f.email.value);
  }
}

=== FILE: server_invariants.dfy ===
/** Every Express server handler keeps the store consistent: one member per
    email, one member per id, counters equal to the bookings' tally, and a
    discount on every member. */
module ServerInvariants {
  import opened Records
  import opened Store
  import opened Integrity
  import opened Server

  predicate Sound(s: State) {
    Consistent(s) && AllPriced(s.members)
  }

  lemma CheckoutKeepsSound(s: State, f: CheckoutForm, id: string, now: nat)
    requires Sound(s) && FreshId(s, id)
    ensures Sound(Checkout(s, f, id, now).state)
  {
    var r := Checkout(s, f, id, now);
    if Complete(f) {
      var e := f.email.value;
      if HasEmail(s.members, e) {
        var i := FindEmail(s.members, e).value;
        RewriteKeepsConsistent(s, i, r.state.members[i]);
        assert r.state.members == s.members[i := r.state.members[i]];
      } else {
        var m := r.state.members[|s.members|];
        EnrolKeepsConsistent(s, m);
        assert r.state.members == s.members + [m];
      }
    }
  }

  lemma UpdateKeepsSound(s: State, e: string, phone: Option<string>, fullName: Option<string>, now: nat)
    requires Sound(s)
    ensures Sound(Update(s, e, phone, fullName, now).state)
  {
    var r := Update(s, e, phone, fullName, now);
    if HasEmail(s.members, e) {
      var i := FindEmail(s.members, e).value;
      RewriteKeepsConsistent(s, i, r.state.members[i]);
      assert r.state.members == s.members[i := r.state.members[i]];
    }
  }

  lemma CancelKeepsSound(s: State, e: string, now: nat)
    requires Sound(s)
    ensures Sound(Cancel(s, e, now).state)
  {
    var ms := s.members;
    var ms' := Cancel(s, e, now).state.members;
    forall x | x in ms' ensures Tallied(x, s.bookings) {
      var j :| 0 <= j < |ms'| && ms'[j] == x;
      assert Tallied(ms[j], s.bookings);
    }
  }

  /** A successful booking adds exactly one booking and credits it to exactly
      one member, so the tallies stay equal to the counters. */
  lemma CreateBookingKeepsSound(s: State, q: BookingRequest, id: string, now: nat)
    requires Sound(s)
    ensures Sound(CreateBooking(s, q, id, now).state)
  {
    var r := CreateBooking(s, q, id, now);
    if r.reply.Ok? {
      var i := FindActive(s.members, q.email.value).value;
      var b := r.reply.value;
      ChargeKeepsConsistent(s, i, b);
      var m := s.members[i];
      assert r.state.members == s.members[i := m.(totalBookings := m.totalBookings + 1, totalSavings := m.totalSavings + b.discount)];
    }
  }

  /** On a sound store a booking fails only for want of an active member;
      the missing-discount failure cannot arise. */
  lemma SoundBookingNeverFaults(s: State, q: BookingRequest, id: string, now: nat)
    requires Sound(s)
    ensures CreateBooking(s, q, id, now).reply.Ok? <==> q.email.Some? && HasActive(s.members, q.email.value)
  {
  }

  /** The counters of the member a booking is charged to grow by one booking
      and that booking's discount, so after N bookings they hold N and the sum
      of the N discounts. */
  lemma BookingCreditsTheTally(s: State, q: BookingRequest, id: string, now: nat)
    requires Sound(s)
    requires CreateBooking(s, q, id, now).reply.Ok?
    ensures var r := CreateBooking(s, q, id, now);
      var i := FindActive(s.members, q.email.value).value;
      && Select(r.state.bookings, ByMember(s.members[i].id)) == Select(s.bookings, ByMember(s.members[i].id)) + [r.reply.value]
      && Tallied(r.state.members[i], r.state.bookings)
  {
    var r := CreateBooking(s, q, id, now);
    var i := FindActive(s.members, q.email.value).value;
    TallyOfAppended(s.bookings, r.reply.value, s.members[i]);
    CreateBookingKeepsSound(s, q, id, now);
    assert r.state.members[i] in r.state.members;
  }
}

=== FILE: store.dfy ===
/** Lookups, filters and sums over the stored collections: the linear scans
    (`find`, `filter`, `reduce`) every handler performs. */
module Store {
  import opened Records

  predicate HasEmail(ms: seq<Member>, e: string) {
    exists j :: 0 <= j < |ms| && ms[j].email == e
  }

  /** The member a booking may be charged to: that email, status active. */
  predicate ActiveWith(m: Member, e: string) {
    m.email == e && m.status == Active
  }

  predicate HasActive(ms: seq<Member>, e: string) {
    exists j :: 0 <= j < |ms| && ActiveWith(ms[j], e)
  }

  /** The member a login matches: normalised email and exact password. */
  predicate Credentials(m: Member, e: string, password: string) {
    m.email == e && m.password == Some(password)
  }

  predicate HasCredentials(ms: seq<Member>, e: string, password: string) {
    exists j :: 0 <= j < |ms| && Credentials(ms[j], e, password)
  }

  /** Index of the first member with email `e` (`members.find(m => m.email === e)`). */
  function FindEmail(ms: seq<Member>, e: string): (r: Option<nat>)
    ensures r.Some? ==> r.value < |ms| && ms[r.value].email == e
    ensures r.Some? ==> forall j :: 0 <= j < r.value ==> ms[j].email != e
    ensures r.None? <==> !HasEmail(ms, e)
  {
    if ms == [] then None
    else if ms[0].email == e then Some(0)
    else match FindEmail(ms[1..], e)
      case None =>
        assert forall j :: 0 < j < |ms| ==> ms[j] == ms[1..][j - 1];
        None
      case Some(k) => Some(k + 1)
  }

  /** Index of the first active member with email `e`. */
  function FindActive(ms: seq<Member>, e: string): (r: Option<nat>)
    ensures r.Some? ==> r.value < |ms| && ActiveWith(ms[r.value], e)
    ensures r.Some? ==> forall j :: 0 <= j < r.value ==> !ActiveWith(ms[j], e)
    ensures r.None? <==> !HasActive(ms, e)
  {
    if ms == [] then None
    else if ActiveWith(ms[0], e) then Some(0)
    else match FindActive(ms[1..], e)
      case None =>
        assert forall j :: 0 < j < |ms| ==> ms[j] == ms[1..][j - 1];
        None
      case Some(k) => Some(k + 1)
  }

  /** Index of the first member whose login fields match. */
  function FindCredentials(ms: seq<Member>, e: string, password: string): (r: Option<nat>)
    ensures r.Some? ==> r.value < |ms| && Credentials(ms[r.value], e, password)
    ensures r.Some? ==> forall j :: 0 <= j < r.value ==> !Credentials(ms[j], e, password)
    ensures r.None? <==> !HasCredentials(ms, e, password)
  {
    if ms == [] then None
    else if Credentials(ms[0], e, password) then Some(0)
    else match FindCredentials(ms[1..], e, password)
      case None =>
        assert forall j :: 0 < j < |ms| ==> ms[j] == ms[1..][j - 1];
        None
      case Some(k) => Some(k + 1)
  }

  /** Which bookings a listing or a tally keeps. */
  datatype BookingKey = ByEmail(email: string) | ByMember(id: string) | ByMembers(ids: set<string>)

  predicate Matches(b: Booking, k: BookingKey) {
    match k
    case ByEmail(e) => b.email == e
    case ByMember(id) => b.memberId == id
    case ByMembers(ids) => b.memberId in ids
  }

  /** The bookings matching `k`, in storage order (`bookings.filter(...)`). */
  function Select(bs: seq<Booking>, k: BookingKey): (r: seq<Booking>)
    ensures |r| <= |bs|
    ensures forall b :: b in r <==> b in bs && Matches(b, k)
  {
    if bs == [] then []
    else (if Matches(bs[0], k) then [bs[0]] else []) + Select(bs[1..], k)
  }

  function DiscountTotal(bs: seq<Booking>): real {
    if bs == [] then 0.0 else bs[0].discount + DiscountTotal(bs[1..])
  }

  /** The members whose email is not `e`, in storage order. */
  function Without(ms: seq<Member>, e: string): (r: seq<Member>)
    ensures |r| <= |ms|
    ensures forall m :: m in r <==> m in ms && m.email != e
  {
    if ms == [] then []
    else (if ms[0].email != e then [ms[0]] else []) + Without(ms[1..], e)
  }

  /** Members a statistic counts. */
  datatype MemberTest = IsActive | OnPlan(plan: string)

  predicate Passes(m: Member, t: MemberTest) {
    match t
    case IsActive => m.status == Active
    case OnPlan(p) => m.plan == Some(p)
  }

  /** How many members pass `t` (`members.filter(...).length`). */
  function Count(ms: seq<Member>, t: MemberTest): (n: nat)
    ensures n <= |ms|
  {
    if ms == [] then 0 else (if Passes(ms[0], t) then 1 else 0) + Count(ms[1..], t)
  }

  /** The sum of every member's `totalSavings` (`reduce` from 0): never
      negative when no member's savings are. */
  function SavingsTotal(ms: seq<Member>): (t: real)
    ensures (forall j :: 0 <= j < |ms| ==> ms[j].totalSavings >= 0.0) ==> t >= 0.0
  {
    if ms == [] then 0.0
    else
      assert forall j :: 0 < j < |ms| ==> ms[j] == ms[1..][j - 1];
      ms[0].totalSavings + SavingsTotal(ms[1..])
  }

  /** The sum of every member's `totalBookings`. */
  function BookedTotal(ms: seq<Member>): nat {
    if ms == [] then 0 else ms[0].totalBookings + BookedTotal(ms[1..])
  }

  /** Filtering is order-preserving: it distributes over concatenation. */
  lemma {:induction false} SelectAppend(a: seq<Booking>, b: seq<Booking>, k: BookingKey)
    ensures Select(a + b, k) == Select(a, k) + Select(b, k)
  {
    if a == [] {
      assert a + b == b;
    } else {
      assert (a + b)[1..] == a[1..] + b;
      SelectAppend(a[1..], b, k);
    }
  }

  lemma {:induction false} DiscountTotalAppend(a: seq<Booking>, b: seq<Booking>)
    ensures DiscountTotal(a + b) == DiscountTotal(a) + DiscountTotal(b)
  {
    if a == [] {
      assert a + b == b;
    } else {
      assert (a + b)[1..] == a[1..] + b;
      DiscountTotalAppend(a[1..], b);
    }
  }

  /** Removing by email is order-preserving: it distributes over concatenation. */
  lemma {:induction false} WithoutAppend(a: seq<Member>, b: seq<Member>, e: string)
    ensures Without(a + b, e) == Without(a, e) + Without(b, e)
  {
    if a == [] {
      assert a + b == b;
    } else {
      assert (a + b)[1..] == a[1..] + b;
      WithoutAppend(a[1..], b, e);
    }
  }

  /** Removing by email shortens the list exactly when some member has it. */
  lemma {:induction false} WithoutShortens(ms: seq<Member>, e: string)
    ensures |Without(ms, e)| == |ms| <==> !HasEmail(ms, e)
  {
    if ms != [] {
      WithoutShortens(ms[1..], e);
      if ms[0].email != e {
        assert HasEmail(ms, e) ==> HasEmail(ms[1..], e) by {
          if HasEmail(ms, e) {
            var j :| 0 <= j < |ms| && ms[j].email == e;
            assert ms[1..][j - 1] == ms[j];
          }
        }
        assert HasEmail(ms[1..], e) ==> HasEmail(ms, e) by {
          if HasEmail(ms[1..], e) {
            var j :| 0 <= j < |ms[1..]| && ms[1..][j].email == e;
            assert ms[j + 1] == ms[1..][j];
          }
        }
      } else {
        assert HasEmail(ms, e) by { assert ms[0].email == e; }
      }
    }
  }

  /** A booking belongs to `{id} + ids` exactly when it belongs to `id` or
      to `ids`; with `id` outside `ids` the tallies add up. */
  lemma {:induction false} SelectSplit(bs: seq<Booking>, id: string, ids: set<string>)
    requires id !in ids
    ensures |Select(bs, ByMembers({id} + ids))| == |Select(bs, ByMember(id))| + |Select(bs, ByMembers(ids))|
    ensures DiscountTotal(Select(bs, ByMembers({id} + ids)))
         == DiscountTotal(Select(bs, ByMember(id))) + DiscountTotal(Select(bs, ByMembers(ids)))
  {
    if bs != [] {
      SelectSplit(bs[1..], id, ids);
      var b := bs[0];
      var all := Select(bs[1..], ByMembers({id} + ids));
      var one := Select(bs[1..], ByMember(id));
      var rest := Select(bs[1..], ByMembers(ids));
      assert Select(bs, ByMembers({id} + ids)) == (if b.memberId in {id} + ids then [b] else []) + all;
      assert Select(bs, ByMember(id)) == (if b.memberId == id then [b] else []) + one;
      assert Select(bs, ByMembers(ids)) == (if b.memberId in ids then [b] else []) + rest;
      if b.memberId == id {
        DiscountTotalAppend([b], all);
        DiscountTotalAppend([b], one);
        assert Select(bs, ByMembers(ids)) == rest;
      } else if b.memberId in ids {
        DiscountTotalAppend([b], all);
        DiscountTotalAppend([b], rest);
        assert Select(bs, ByMember(id)) == one;
      } else {
        assert Select(bs, ByMembers({id} + ids)) == all;
        assert Select(bs, ByMember(id)) == one;
        assert Select(bs, ByMembers(ids)) == rest;
      }
    }
  }

  /** Counting is additive over concatenation; with `Count`'s own contract
      on a single member this fixes it as the number of passing members. */
  lemma {:induction false} CountAppend(a: seq<Member>, b: seq<Member>, t: MemberTest)
    ensures Count(a + b, t) == Count(a, t) + Count(b, t)
  {
    if a == [] {
      assert a + b == b;
    } else {
      assert (a + b)[1..] == a[1..] + b;
      CountAppend(a[1..], b, t);
    }
  }

  /** A count is zero exactly when no member passes, and the whole length
      exactly when every member does. */
  lemma {:induction false} CountExtremes(ms: seq<Member>, t: MemberTest)
    ensures Count(ms, t) == 0 <==> forall j :: 0 <= j < |ms| ==> !Passes(ms[j], t)
    ensures Count(ms, t) == |ms| <==> forall j :: 0 <= j < |ms| ==> Passes(ms[j], t)
  {
    if ms != [] {
      CountExtremes(ms[1..], t);
      assert forall j :: 0 < j < |ms| ==> ms[j] == ms[1..][j - 1];
    }
  }

  /** Summing savings is additive over concatenation. */
  lemma {:induction false} SavingsTotalAppend(a: seq<Member>, b: seq<Member>)
    ensures SavingsTotal(a + b) == SavingsTotal(a) + SavingsTotal(b)
  {
    if a == [] {
      assert a + b == b;
    } else {
      assert (a + b)[1..] == a[1..] + b;
      SavingsTotalAppend(a[1..], b);
    }
  }

  /** Two different plans are disjoint, so together they count at most
      every member (the monthly and yearly counts of the statistics). */
  lemma {:induction false} PlanCountsBounded(ms: seq<Member>, p: string, q: string)
    requires p != q
    ensures Count(ms, OnPlan(p)) + Count(ms, OnPlan(q)) <= |ms|
  {
    if ms != [] {
      PlanCountsBounded(ms[1..], p, q);
    }
  }
}

=== FILE: text.dfy ===
/** Python's `str.strip()` and `str.lower()` as the Flask signup and login
    apply them to emails, over the ASCII range. */
module Text {

  /** Python's whitespace among ASCII characters: tab through carriage return,
      the four separators 0x1C-0x1F, and space. */
  predicate IsSpace(c: char) {
    ('\t' <= c <= '\r') || ('\U{1C}' <= c <= '\U{1F}') || c == ' '
  }

  function TrimStart(s: string): (r: string)
    ensures |r| <= |s| && r == s[|s| - |r|..]
    ensures r == [] || !IsSpace(r[0])
    ensures forall k :: 0 <= k < |s| - |r| ==> IsSpace(s[k])
  {
    if s != [] && IsSpace(s[0]) then TrimStart(s[1..]) else s
  }

  function TrimEnd(s: string): (r: string)
    ensures |r| <= |s| && r == s[..|r|]
    ensures r == [] || !IsSpace(r[|r| - 1])
    ensures forall k :: |r| <= k < |s| ==> IsSpace(s[k])
  {
    if s != [] && IsSpace(s[|s| - 1]) then TrimEnd(s[..|s| - 1]) else s
  }

  /** The number of whitespace characters `s` starts with. */
  function Leading(s: string): (n: nat)
    ensures n <= |s|
    ensures forall k :: 0 <= k < n ==> IsSpace(s[k])
    ensures n == |s| || !IsSpace(s[n])
  {
    |s| - |TrimStart(s)|
  }

  /** `s.strip()`: the text between the leading and the trailing whitespace.
      Only whitespace is removed, and none is left at either end. */
  function Trim(s: string): (r: string)
    ensures Leading(s) + |r| <= |s| && r == s[Leading(s)..Leading(s) + |r|]
    ensures forall k :: Leading(s) + |r| <= k < |s| ==> IsSpace(s[k])
    ensures r == [] || (!IsSpace(r[0]) && !IsSpace(r[|r| - 1]))
  {
    var t := TrimStart(s);
    var r := TrimEnd(t);
    assert r != [] ==> r[0] == t[0];
    assert t == s[Leading(s)..];
    r
  }

  function LowerChar(c: char): char {
    if 'A' <= c <= 'Z' then (c as int + 32) as char else c
  }

  /** `s.lower()` on ASCII letters. */
  function Lower(s: string): (r: string)
    ensures |r| == |s|
    ensures forall i :: 0 <= i < |r| ==> !('A' <= r[i] <= 'Z')
    ensures forall i :: 0 <= i < |s| && 'A' <= s[i] <= 'Z' ==> r[i] as int == s[i] as int + 32
    ensures forall i :: 0 <= i < |s| && !('A' <= s[i] <= 'Z') ==> r[i] == s[i]
  {
    seq(|s|, i requires 0 <= i < |s| => LowerChar(s[i]))
  }

  /** The email key the Flask signup stores and the login looks up. */
  function Normalize(s: string): string {
    Lower(Trim(s))
  }

  /** Lower-casing keeps whitespace and non-whitespace apart. */
  lemma LowerCharKeepsSpace(c: char)
    ensures IsSpace(LowerChar(c)) <==> IsSpace(c)
    ensures LowerChar(LowerChar(c)) == LowerChar(c)
  {
  }

  /** Lower-casing a lower-cased string changes nothing. */
  lemma LowerIdempotent(s: string)
    ensures Lower(Lower(s)) == Lower(s)
  {
    var l := Lower(s);
    forall i | 0 <= i < |s|
      ensures Lower(l)[i] == l[i]
    {
      LowerCharKeepsSpace(s[i]);
    }
  }

  /** A string with no whitespace at either end is its own `strip()`. */
  lemma TrimmedIsFixed(s: string)
    requires s == [] || (!IsSpace(s[0]) && !IsSpace(s[|s| - 1]))
    ensures Trim(s) == s
  {
    assert TrimStart(s) == s;
    assert TrimEnd(s) == s;
  }

  /** Normalising twice is normalising once, so a stored (normalised) email
      is its own key. */
  lemma NormalizeIdempotent(s: string)
    ensures Normalize(Normalize(s)) == Normalize(s)
  {
    var t := Trim(s);
    var n := Lower(t);
    if n != [] {
      LowerCharKeepsSpace(t[0]);
      LowerCharKeepsSpace(t[|t| - 1]);
    }
    TrimmedIsFixed(n);
    LowerIdempotent(t);
  }

  /** A normalised email is already lower-case, so lower-casing it again
      (as the login's admin test does) changes nothing. */
  lemma LowerOfNormalized(s: string)
    ensures Lower(Normalize(s)) == Normalize(s)
  {
    LowerIdempotent(Trim(s));
  }
}
